=== FILE: README.md ===
# Application ranking and group balancing model

A Dafny model of the decision logic of a summer-school application-ranking tool,
together with the group-balancing plugin that runs after acceptance.

In the ranking tool (`grader.py`) it covers:

- resolving a free-text skill answer to a rating, and the missing-rating condition;
- the mean of a reviewer's grades, where missing grades do not count;
- canonicalising institute and group names through the equivalence table;
- sorting applicants by score and giving applicants from the same lab one shared rank;
- splitting the ranked list into the accepted, same-lab and rejected mailing lists;
- the lowest and highest value a ranking formula can take over the whole input domain;
- parsing and printing the `a = b = c` equivalence syntax.

On the plugin side it covers:

- selecting the confirmed participants and turning each one into a row of ratings;
- the group blocks `[i*K, (i+1)*K)`;
- the randomised pair-swap search.

Floating-point numbers are exact `real`s. NaN appears only where the program produces it
deliberately: the mean of no grades, and the bounds of an empty domain. The formula, the
energy function and the random number generator are function parameters, and every
property holds for all of them.

Modules, one per file:

| module | file | models |
|---|---|---|
| `Wrappers` | wrappers.dfy | `Option` and `Result` |
| `Text` | text.dfy | the Python string operations the code relies on: `strip`, `lower`, `partition`/`split(c)[0]`, `split`, `join`, `in` |
| `Ratings` | ratings.dfy | `get_rating`, `MissingRating` |
| `Grades` | grades.dfy | `list_of_float.mean` |
| `Equivs` | equivs.dfy | `_equiv_master`, `list_of_equivs` |
| `Bounds` | bounds.dfy | `find_min_max` |
| `Ranking` | ranking.dfy | the sort and rank loop of `_assign_rankings` |
| `Buckets` | buckets.dfy | the three list filters of `do_write` |
| `Groups` | groups.dfy | `participants`, `extract_data`, `gslice` |
| `GroupSearch` | groupsearch.dfy | `optimize` |

Two properties one might expect do not hold of the code:

- **Ranks need not increase down the list.** A lab keeps the rank it got when it first
  appeared. A later applicant from an earlier lab therefore gets a smaller rank than the
  applicant before them (`Ranking.RanksNotMonotone`).
- **Canonicalisation is not idempotent in general.** Applying it twice gives the same
  result for a matched variant when no equivalence entry matches the key of a later entry
  (`Equivs.EquivMasterIdempotent`), and for a variant that matches nothing either as given
  or stripped (`Equivs.EquivMasterIdempotentUnmatched`). It fails in two ways. An earlier
  entry can capture a later entry's key (`Equivs.ShadowedEntry`). And a spelling can match
  only after stripping: with the single entry `MIT = m.i.t.`, the padded `"m.i.t. "` matches
  nothing and comes back as `"m.i.t."`, which then maps to `"MIT"` (`Equivs.PaddedSpelling`).

The revert test of `optimize` is modelled both as the code writes it and as its docstring
describes it (see "## Findings"); `GroupSearch.Optimize` takes the rule as a parameter, and
with `AsWritten` it is the loop of the code.

## Model

| member | source | states |
|---|---|---|
| Text.Strip | grader/grader.py:541 | `strip()` leaves no whitespace at either end and never lengthens the text |
| Text.StripSlice | grader/grader.py:541 | the stripped text is a contiguous slice of the input, and everything cut off is whitespace |
| Text.StripIdempotent | grader/grader.py:541 | stripping twice is stripping once |
| Text.StripPadded | grader/grader.py:634 | whitespace around an already stripped text is exactly what `strip()` removes |
| Text.Before | grader/grader.py:541 | `partition(c)[0]` is a prefix without `c`; when shorter than the input, `c` follows it |
| Text.BeforeAppend | grader/grader.py:541 | cutting `x + y` at `c`, where `c` does not occur in `x`, keeps `x` and cuts `y` |
| Text.Split | grader/grader.py:634 | `split(c)` yields at least one piece, and no piece contains `c` |
| Text.SplitAppend | grader/grader.py:634 | splitting `a + c + b` gives `a` followed by the pieces of `b` |
| Text.Lower | plugins/create_groups/create_groups.py:27 | `lower()` keeps the length, and changes a character exactly when it is an ASCII capital, into the letter 32 code points further on, so no ASCII capital remains |
| Text.LowerIdempotent | plugins/create_groups/create_groups.py:53 | lowercasing twice is lowercasing once |
| Text.Join | grader/grader.py:639 | `sep.join(items)` is empty for no items, starts with the first item and ends with the last |
| Text.Contains | plugins/create_groups/create_groups.py:30 | substring test: true exactly when the pattern occurs at some position |
| Ratings.CanonicalKey | grader/grader.py:541 | the lookup key contains no `(` or `/` and is stripped, and the raw answer is whitespace, then the key, then whitespace, then its end or its first `(` or `/` |
| Ratings.Lookup | grader/grader.py:543 | `dict[key]` finds the first entry with the key, and is absent exactly when no entry has it |
| Ratings.GetRating | grader/grader.py:534-549 | a present key gives its stored rating; otherwise the fallback; with no fallback, `MissingRating` carrying the category and the canonical key (the `key` property) |
| Ratings.SameKeySameRating | grader/grader.py:534-549 | answers with the same canonical key get the same rating or the same error |
| Ratings.CanonicalKeyIgnoresExplanation | grader/grader.py:535-541 | anything from the first `(` or `/` on, and whitespace before it, does not affect the key |
| Ratings.ExplanationIgnored | grader/grader.py:534-549 | `"x (note)"`, `"x / y"` and `"x"` get the same rating or the same error |
| Ratings.CanonicalKeyIdempotent | grader/grader.py:541 | a canonical key is its own canonical key |
| Grades.Given | grader/grader.py:557 | there are no more valid grades than entries, and none exactly when all are missing |
| Grades.GivenMembers | grader/grader.py:557 | a value is among the valid grades exactly when some entry holds it |
| Grades.PositionsFrom | grader/grader.py:557 | the positions from `from` on that hold a grade, strictly increasing |
| Grades.PositionsComplete | grader/grader.py:557 | every position from `from` on that holds a grade is listed |
| Grades.GivenExact | grader/grader.py:557 | the valid grades are the grades at those positions, in order and with their multiplicity |
| Grades.Mean | grader/grader.py:556-560 | NaN exactly when no grade is given; otherwise mean times count equals the sum of the given grades |
| Grades.MeanBetween | grader/grader.py:556-560 | some given grade is at most the mean and some given grade is at least it |
| Grades.MeanUnanimous | grader/grader.py:556-560 | when every given grade equals `g`, the mean is `g` |
| Equivs.FirstMatch | grader/grader.py:434-437 | the first entry whose key or one of whose spellings equals the variant, ignoring case; none when no entry matches |
| Equivs.EquivMaster | grader/grader.py:432-438 | a matched variant maps to the key of the first matching entry; an unmatched one to itself, stripped |
| Equivs.EquivMasterIgnoresCase | grader/grader.py:435-436 | variants that differ only in case are matched alike, and canonicalised alike when matched |
| Equivs.EquivMasterIdempotent | grader/grader.py:432-438 | with no shadowed entries, canonicalising a matched variant twice is canonicalising it once |
| Equivs.EquivMasterIdempotentUnmatched | grader/grader.py:432-438 | a variant that matches nothing, as given or stripped, is canonicalised once and for all |
| Equivs.PaddedSpelling | grader/grader.py:432-438 | without shadowing, a spelling padded with a space is not canonicalised in one step |
| Equivs.ShadowedEntry | grader/grader.py:434-437 | an earlier entry listing a later key as a spelling captures that key |
| Equivs.ParseEquivs | grader/grader.py:633-636 | no argument gives no names; an argument gives one name per `=`-separated piece of it, each piece stripped, so every name is stripped and free of `=` |
| Equivs.ParseSingle | grader/grader.py:633-636 | an argument without `=` is one name, the argument stripped |
| Equivs.ParseCons | grader/grader.py:633-636 | the stripped text before the first `=` is the first name, and the rest of the argument gives the other names |
| Equivs.FormatEquivs | grader/grader.py:638-639 | the names joined by `' = '`: one name prints as itself, and otherwise the first name opens the text and the last closes it |
| Equivs.SplitPrinted | grader/grader.py:634-639 | splitting the `' = '`-joined names at `=` gives each name with the spaces that the join put around it |
| Equivs.StripPrinted | grader/grader.py:634-639 | stripping each of those pieces gives back the stripped names |
| Equivs.ParseFormat | grader/grader.py:632-639 | printing stripped, `=`-free names and parsing them back gives the same names |
| Equivs.FormatParse | grader/grader.py:632-639 | a parsed list survives printing and reparsing unchanged |
| Bounds.ProductMembers | grader/grader.py:601-613 | a point is in `itertools.product` of the axes exactly when each coordinate comes from its axis |
| Bounds.ProductEmpty | grader/grader.py:601-613 | the product is empty exactly when some axis is empty |
| Bounds.DomainExact | grader/grader.py:601-613 | the enumerated variable assignments are exactly those the axes allow |
| Bounds.DomainEmpty | grader/grader.py:601-615 | the domain is empty exactly when one of the three rating tables is empty |
| Bounds.FindMinMax | grader/grader.py:614-617 | both bounds are NaN exactly when a rating table is empty, and never only one of them |
| Bounds.FindMinMaxSound | grader/grader.py:598-617 | the formula's value at every domain point lies between the two bounds |
| Bounds.FindMinMaxAttained | grader/grader.py:598-617 | both bounds are values the formula takes at some domain point |
| Ranking.SortOrder | grader/grader.py:410 | the sort is a permutation with scores non-increasing, and equal scores keep their input order (stable) |
| Ranking.FirstSeen | grader/grader.py:412-420 | each lab once, and exactly the labs of the list |
| Ranking.FirstSeenPrefix | grader/grader.py:412-420 | the labs met among the first `n` applicants come first, in the same order, so the labs are listed in order of first appearance |
| Ranking.CollapseRanks | grader/grader.py:412-422 | the rank loop gives each applicant the first-appearance number of their lab; two applicants share a rank exactly when they share a lab |
| Ranking.SameRankIffSameLab | grader/grader.py:412-422 | equal ranks exactly for equal labs |
| Ranking.RanksExact | grader/grader.py:412-422 | the ranks used are exactly `0 .. number of labs - 1` |
| Ranking.RankOfFirstAppearance | grader/grader.py:418-420 | a lab's first applicant gets the number of labs seen before it |
| Ranking.RanksNotMonotone | grader/grader.py:412-422 | ranks need not increase down the sorted list |
| Ranking.SharedLabExample | grader/grader.py:412-422 | two applicants of one lab share a rank and the next lab gets the following one |
| Ranking.AssignRankings | grader/grader.py:411-422 | the ranked list is a stable descending sort of the applicants, and ranks agree exactly on applicants whose canonical `institute / group` agree |
| Buckets.Select | grader/grader.py:495-505 | each list holds, in ranked order, exactly the applicants its filter admits |
| Buckets.BucketSizes | grader/grader.py:495-505 | the three lists together hold every ranked applicant once |
| Buckets.BucketsPartition | grader/grader.py:495-505 | every ranked applicant is on one of the three lists and on no two |
| Buckets.CountOne | grader/grader.py:495 | a rank's `Counter` count is 1 exactly when no other applicant holds it |
| Buckets.AcceptedIffAloneInLab | grader/grader.py:497-502 | within the accept count, an applicant goes to the accepted list exactly when no other applicant shares the lab, and otherwise to the same-lab list |
| Groups.FullName | grader/grader.py:89-91 | the first name, then a space, then the last name; so a first name without spaces is the text before the first space |
| Groups.Participants | plugins/create_groups/create_groups.py:24-31 | every participant yielded is confirmed |
| Groups.ParticipantsExact | plugins/create_groups/create_groups.py:24-31 | the participants are exactly the confirmed applicants, in application order, and those without a label entry are skipped |
| Groups.GroupKey | plugins/create_groups/create_groups.py:53-55 | the normalised answer is the prefix of the lowercased answer up to, not including, its first space, `/` or `,` |
| Groups.GroupKeyIdempotent | plugins/create_groups/create_groups.py:53-55 | normalising a normalised answer changes nothing |
| Groups.RatesOf | plugins/create_groups/create_groups.py:50-57 | the lookups in the per-field tables succeed exactly when every key is present, giving each field's stored rating in field order; otherwise they fail at the first field whose key is missing, as `value[attr]` raises `KeyError` there |
| Groups.RatesOfPerson | plugins/create_groups/create_groups.py:50-57 | the per-field lookups of one participant succeed exactly when every field's answer has a rating; a failure names the first field without one |
| Groups.KeysOfPerson | plugins/create_groups/create_groups.py:50-58 | looking up a participant's normalised answers in the field tables is the same as rating the participant field by field |
| Groups.RowsOf | plugins/create_groups/create_groups.py:48-58 | the rows are built exactly when every participant's keys are all present, one row per participant holding its ratings and its running number; a failure names the first participant whose keys are not all present, and that participant's first missing field and key |
| Groups.RowsOfPersons | plugins/create_groups/create_groups.py:48-58 | the rows are built exactly when every participant is rated, one row per participant, row `k` holding participant `k`'s ratings and `k` |
| Groups.RateParticipants | plugins/create_groups/create_groups.py:46-61 | for a given participant list: succeeds exactly when all are rated and the count matches; a failure is the first unrated participant's first unrated field if there is one, and otherwise the wrong count |
| Groups.ExtractData | plugins/create_groups/create_groups.py:34-62 | succeeds exactly when every participant is rated and their count is the accept count; then row `k` holds participant `k`'s ratings and number, and the name table maps `0 .. n-1` to the full names; an unrated participant makes it fail with the `KeyError` of the first unrated participant's first unrated field, before the count is checked; with everyone rated, a wrong count is the failure |
| Groups.BlockOf | plugins/create_groups/create_groups.py:64-65 | index `x` lies in `gslice(i, K)` exactly when `x // K == i` |
| Groups.BlocksPartition | plugins/create_groups/create_groups.py:64-65 | every block has `K` indices, blocks share none, and the first `G` blocks cover `[0, G*K)` |
| GroupSearch.Swap | plugins/create_groups/create_groups.py:114 | rows `a` and `b` trade places, every other row stays, and the multiset of rows is unchanged |
| GroupSearch.SwapInvolution | plugins/create_groups/create_groups.py:114-117 | the undo at line 117 restores the arrangement |
| GroupSearch.CrossesIffDifferentSlices | plugins/create_groups/create_groups.py:111 | the `//` test on an index pair means the two indices are in different `gslice` blocks |
| GroupSearch.CrossDraws | plugins/create_groups/create_groups.py:110-112 | the pairs kept all cross groups and there are no more of them than draws |
| GroupSearch.CrossDrawsMembers | plugins/create_groups/create_groups.py:110-112 | a draw is kept exactly when it crosses groups |
| GroupSearch.CrossDrawsAll | plugins/create_groups/create_groups.py:110-112 | when every draw crosses groups, all are kept in order |
| GroupSearch.AsWrittenRevertsImprovement | plugins/create_groups/create_groups.py:116-117 | as written, with `p > 0` a swap that lowers the energy can be undone |
| GroupSearch.AsWrittenNeverAcceptsWorse | plugins/create_groups/create_groups.py:116-117 | as written, a swap that raises the energy is always undone, whatever `p` is |
| GroupSearch.RevertsMeaning | plugins/create_groups/create_groups.py:99-104 | the documented rule keeps every non-worsening swap, and keeps a worsening one exactly when the draw is below `p` |
| GroupSearch.RulesAgreeWithoutNoise | plugins/create_groups/create_groups.py:98 | with the default `p = 0` the written and documented rules agree |
| GroupSearch.StepRulesAgree | plugins/create_groups/create_groups.py:98 | with `p <= 0` a try gives the same arrangement under either rule |
| GroupSearch.Step | plugins/create_groups/create_groups.py:113-117 | one try ends in the old or the swapped arrangement with the same rows; under the written rule a worsening swap is undone, any swap is undone when `p > 0` and the draw is below `p`, and otherwise a non-worsening swap is kept; under the documented rule a non-worsening swap is kept, and a worsening one is kept exactly when `p > 0` and the draw is below `p`; with `p <= 0` the energy never rises |
| GroupSearch.TracedInvariant | plugins/create_groups/create_groups.py:109-117 | every arrangement along a traced run of tries has the input's rows, and with `p <= 0` an energy no higher than the input's |
| GroupSearch.Resample | plugins/create_groups/create_groups.py:111-112 | skips exactly the same-group draws up to the first crossing one, or to the end of the stream |
| GroupSearch.Iteration | plugins/create_groups/create_groups.py:110-117 | one pass of the loop body either runs out of draws, consuming them all and trying nothing, or tries exactly one more pair, the last draw consumed, keeping the trace from the input |
| GroupSearch.Search | plugins/create_groups/create_groups.py:109-117 | under either revert rule, the loop makes at most `rep` tries and runs short only when the draws are used up; the tries taken are exactly the crossing draws among those consumed, traced step by step from the input to the result |
| GroupSearch.SearchedMeans | plugins/create_groups/create_groups.py:109-117 | a completed search returns a permutation of the input rows, every swap it tried crossed groups, and with `p <= 0` the final energy is at most the initial one |
| GroupSearch.Optimize | plugins/create_groups/create_groups.py:98-117 | with the written rule, the loop of lines 109-117: at most `rep` tries, each on the next crossing draw, as a traced sequence of steps; the rows are a permutation of the input; it stops early only when the draws run out; with `p <= 0` the final energy is at most the initial one |

## Left out

- File and terminal I/O: the CSV reader, configuration files, `do_dump`, `printf` and `_write_file`.
  `do_write` is modelled only as its three selections.
- The `ValueError` that `_assign_rankings` raises when no formula is set (grader.py lines
  395-396), and the scoring step before the sort: `Ranking.AssignRankings` starts from
  applicants whose scores are already computed.
- `eval_formula` and `rank_person`. The formula is an abstract function from the eleven
  variables to a real, so Python's `eval`, its `NameError`/`TypeError` path, and the range
  assertion in `rank_person` are not modelled.
- Scores are reals. Sorting with NaN scores is left out, because Python's order is not total
  on NaN.
- `_ranked`, `_ranking`, `do_rank` and `do_equiv` are left out. They re-sort by rank and
  edit configuration, and are outside this core. `do_write` calls `self._ranking()`, which
  is not defined in grader.py; `Buckets` takes the ranked list as its input instead.
- The energy functions (`energy`, `energy_mudeviation`, `energy_nonuniform`) rely on numpy
  floating point. `energy` is a parameter of `GroupSearch.Optimize`, and every property
  holds for any energy function.
- Random numbers: `draws` stands for the stream of `randint` pairs and `rand` for the
  `rand()` values, one per try. The model does not fix how `rand()` calls interleave with
  `randint` on numpy's single generator, and leaves out the SHA-512 seeding in `main`.
- `main`'s trial loop, `np.random.permutation` and `argsort`, and `print_groups`: they
  repeat `optimize` from random starts and print.
- GroupSearch.Optimize: the draw stream is finite. When no further pair crosses groups, the
  model stops with fewer than `rep` tries. The source keeps drawing forever, which happens
  whenever all indices fall in one block.
- Text.Lower: only ASCII letters are lowercased. Python's `str.lower` also maps non-ASCII
  letters, sometimes to more than one character.
- Groups.ExtractData: the count check compares the number of participants with the accept
  count. That number equals `len(names)`, because the name table is keyed `0 .. n-1`.
- Groups.RowsOf: the participant number is stored as a real in the row. numpy stores it as
  a float in the same array.
- `list_of_float.__str__`, the Person record's other fields, and the `score` and `rank`
  attributes outside `_assign_rankings`.
- Bounds.FindMinMax: the min and max use exact real comparison. With NaN formula values,
  Python's `min` and `max` depend on position.

## Findings

| source | as written | input that shows it | evidently intended | confidence | as-written member | corrected member |
|---|---|---|---|---|---|---|
| plugins/create_groups/create_groups.py:116-117 | the swap is undone when `E1 < E2 or (p > 0. and p > rand())`, so with `p > 0` an improving swap is undone with probability `p`, and a worsening swap is never kept | `E1 = 1.0`, `E2 = 0.5`, `p = 0.5`, `rand() = 0.1`: the energy drops, yet the swap is undone | as the docstring at lines 99-104 says: keep every swap that lowers the energy, and keep one that raises it with probability `p` (undo only when `E1 < E2` and not `rand() < p`) | medium, not executed; `main` calls it with the default `p = 0`, where both rules agree | GroupSearch.AsWrittenRevertsImprovement | GroupSearch.RevertsMeaning |

=== FILE: bounds.dfy ===
/** The brute-force score bounds of a formula (`find_min_max`). The formula
    is an arbitrary total function of the variable record; the bounds come
    from evaluating it on every point of a fixed finite domain. */
module Bounds {
  import opened Ratings
  import opened Grades

  /** A value a formula variable takes in the search: an int, a string or a
      float. */
  datatype Value = IntV(i: int) | StrV(s: string) | NumV(r: real)

  /** The variables a formula is evaluated with. */
  datatype Vars = Vars(born: int, gender: string, female: int, nation: string, country: string,
                       motivation: real, cv: real, programming: real, openSource: real,
                       applied: int, python: real)

  type Formula = Vars -> real

  const HostCountry: string := "Germany"
  const OtherNation: string := "Nicaragua"

  /** The grades a reviewer may give: `SCORE_RANGE = (-1, 0, 1)`. */
  const ScoreRange: seq<int> := [-1, 0, 1]

  function Ints(xs: seq<int>): (r: seq<Value>)
    ensures |r| == |xs|
    ensures forall v :: v in r <==> v.IntV? && v.i in xs
  {
    var r := seq(|xs|, k requires 0 <= k < |xs| => IntV(xs[k]));
    assert forall v: Value :: v.IntV? && v.i in xs ==> v in r by {
      forall v: Value | v.IntV? && v.i in xs ensures v in r {
        var k :| 0 <= k < |xs| && xs[k] == v.i;
        assert r[k] == v;
      }
    }
    r
  }

  function Strs(xs: seq<string>): (r: seq<Value>)
    ensures |r| == |xs|
    ensures forall v :: v in r <==> v.StrV? && v.s in xs
  {
    var r := seq(|xs|, k requires 0 <= k < |xs| => StrV(xs[k]));
    assert forall v: Value :: v.StrV? && v.s in xs ==> v in r by {
      forall v: Value | v.StrV? && v.s in xs ensures v in r {
        var k :| 0 <= k < |xs| && xs[k] == v.s;
        assert r[k] == v;
      }
    }
    r
  }

  function Nums(xs: seq<real>): (r: seq<Value>)
    ensures |r| == |xs|
    ensures forall v :: v in r <==> v.NumV? && v.r in xs
  {
    var r := seq(|xs|, k requires 0 <= k < |xs| => NumV(xs[k]));
    assert forall v: Value :: v.NumV? && v.r in xs ==> v in r by {
      forall v: Value | v.NumV? && v.r in xs ensures v in r {
        var k :| 0 <= k < |xs| && xs[k] == v.r;
        assert r[k] == v;
      }
    }
    r
  }

  function ScoreReals(): seq<real> {
    seq(|ScoreRange|, k requires 0 <= k < |ScoreRange| => ScoreRange[k] as real)
  }

  /** The eleven axes of the search, in the order the source lists them. */
  function Axes(prog: RatingTable, os: RatingTable, py: RatingTable): seq<seq<Value>> {
    [ Ints([1900, 2012]),
      Strs(["M", "F"]),
      Ints([0, 1]),
      Strs([OtherNation, HostCountry]),
      Strs([OtherNation, HostCountry]),
      Nums(ScoreReals()),
      Nums(ScoreReals()),
      Nums(Values(prog)),
      Nums(Values(os)),
      Ints([0, 1]),
      Nums(Values(py)) ]
  }

  /** The points of the search domain, as a predicate on the variables. */
  predicate InDomain(v: Vars, prog: RatingTable, os: RatingTable, py: RatingTable) {
    && v.born in [1900, 2012]
    && v.gender in ["M", "F"]
    && v.female in [0, 1]
    && v.nation in [OtherNation, HostCountry]
    && v.country in [OtherNation, HostCountry]
    && v.motivation in ScoreReals()
    && v.cv in ScoreReals()
    && v.programming in Values(prog)
    && v.openSource in Values(os)
    && v.applied in [0, 1]
    && v.python in Values(py)
  }

  /** Every way of putting one of `xs` in front of one of `ps`. */
  function Extend(xs: seq<Value>, ps: seq<seq<Value>>): seq<seq<Value>> {
    if |xs| == 0 then []
    else seq(|ps|, k requires 0 <= k < |ps| => [xs[0]] + ps[k]) + Extend(xs[1..], ps)
  }

  lemma {:induction false} ExtendMembers(xs: seq<Value>, ps: seq<seq<Value>>, q: seq<Value>)
    ensures q in Extend(xs, ps) <==> |q| > 0 && q[0] in xs && q[1..] in ps
  {
    if |xs| > 0 {
      var front := seq(|ps|, k requires 0 <= k < |ps| => [xs[0]] + ps[k]);
      assert Extend(xs, ps) == front + Extend(xs[1..], ps);
      ExtendMembers(xs[1..], ps, q);
      assert q in front <==> |q| > 0 && q[0] == xs[0] && q[1..] in ps by {
        if q in front {
          var k :| 0 <= k < |ps| && front[k] == q;
          assert q[1..] == ps[k];
        }
        if |q| > 0 && q[0] == xs[0] && q[1..] in ps {
          var k :| 0 <= k < |ps| && ps[k] == q[1..];
          assert front[k] == q;
        }
      }
      assert |q| > 0 ==> (q[0] in xs <==> q[0] == xs[0] || q[0] in xs[1..]) by {
        if |q| > 0 && q[0] in xs {
          var k :| 0 <= k < |xs| && xs[k] == q[0];
          if k > 0 { assert xs[1..][k - 1] == q[0]; }
        }
      }
    }
  }

  /** `itertools.product(*axes)`: the first axis varies slowest. */
  function Product(axes: seq<seq<Value>>): seq<seq<Value>> {
    if |axes| == 0 then [[]] else Extend(axes[0], Product(axes[1..]))
  }

  /** `p` takes one value from each axis. */
  predicate Fits(p: seq<Value>, axes: seq<seq<Value>>) {
    |p| == |axes| && forall i :: 0 <= i < |p| ==> p[i] in axes[i]
  }

  /** The product holds exactly the points that take one value per axis. */
  lemma {:induction false} ProductMembers(axes: seq<seq<Value>>, p: seq<Value>)
    ensures p in Product(axes) <==> Fits(p, axes)
    decreases |axes|
  {
    if |axes| == 0 {
      assert p in [[]] <==> p == [];
    } else {
      ExtendMembers(axes[0], Product(axes[1..]), p);
      if |p| > 0 {
        ProductMembers(axes[1..], p[1..]);
        assert Fits(p, axes) <==> p[0] in axes[0] && Fits(p[1..], axes[1..]) by {
          if p[0] in axes[0] && Fits(p[1..], axes[1..]) && |p| == |axes| {
            forall i | 0 <= i < |p| ensures p[i] in axes[i] {
              if i > 0 { assert p[1..][i - 1] == p[i]; }
            }
          }
          if Fits(p, axes) {
            forall i | 0 <= i < |p| - 1 ensures p[1..][i] in axes[1..][i] {
              assert p[i + 1] in axes[i + 1];
            }
          }
        }
      }
    }
  }

  /** The product is empty exactly when some axis is. */
  lemma ProductEmpty(axes: seq<seq<Value>>)
    ensures Product(axes) == [] <==> exists i :: 0 <= i < |axes| && axes[i] == []
  {
    if forall i :: 0 <= i < |axes| ==> axes[i] != [] {
      var p := seq(|axes|, i requires 0 <= i < |axes| => axes[i][0]);
      assert Fits(p, axes);
      ProductMembers(axes, p);
    } else {
      var i :| 0 <= i < |axes| && axes[i] == [];
      if Product(axes) != [] {
        ProductMembers(axes, Product(axes)[0]);
        assert false;
      }
    }
  }

  function AsInt(v: Value): int { if v.IntV? then v.i else 0 }
  function AsStr(v: Value): string { if v.StrV? then v.s else "" }
  function AsNum(v: Value): real { if v.NumV? then v.r else 0.0 }

  /** `dict(vars)`: the variable record of one point of the product. */
  function ToVars(p: seq<Value>): Vars
    requires |p| == 11
  {
    Vars(AsInt(p[0]), AsStr(p[1]), AsInt(p[2]), AsStr(p[3]), AsStr(p[4]),
         AsNum(p[5]), AsNum(p[6]), AsNum(p[7]), AsNum(p[8]), AsInt(p[9]), AsNum(p[10]))
  }

  function FromVars(v: Vars): seq<Value> {
    [IntV(v.born), StrV(v.gender), IntV(v.female), StrV(v.nation), StrV(v.country),
     NumV(v.motivation), NumV(v.cv), NumV(v.programming), NumV(v.openSource),
     IntV(v.applied), NumV(v.python)]
  }

  lemma PointsHaveElevenValues(axes: seq<seq<Value>>)
    requires |axes| == 11
    ensures forall k :: 0 <= k < |Product(axes)| ==> |Product(axes)[k]| == 11
  {
    forall k | 0 <= k < |Product(axes)| ensures |Product(axes)[k]| == 11 {
      ProductMembers(axes, Product(axes)[k]);
    }
  }

  /** The variable records the search evaluates the formula on, in order. */
  function Domain(prog: RatingTable, os: RatingTable, py: RatingTable): seq<Vars> {
    var points := Product(Axes(prog, os, py));
    PointsHaveElevenValues(Axes(prog, os, py));
    seq(|points|, k requires 0 <= k < |points| => ToVars(points[k]))
  }

  lemma FromVarsFits(v: Vars, prog: RatingTable, os: RatingTable, py: RatingTable)
    requires InDomain(v, prog, os, py)
    ensures Fits(FromVars(v), Axes(prog, os, py))
    ensures ToVars(FromVars(v)) == v
  {
  }

  lemma FitsInDomain(p: seq<Value>, prog: RatingTable, os: RatingTable, py: RatingTable)
    requires Fits(p, Axes(prog, os, py))
    ensures InDomain(ToVars(p), prog, os, py)
  {
    var axes := Axes(prog, os, py);
    assert p[0] in axes[0] && p[1] in axes[1] && p[2] in axes[2] && p[3] in axes[3];
    assert p[4] in axes[4] && p[5] in axes[5] && p[6] in axes[6] && p[7] in axes[7];
    assert p[8] in axes[8] && p[9] in axes[9] && p[10] in axes[10];
  }

  /** The enumerated records are exactly the points of the domain. */
  lemma DomainExact(v: Vars, prog: RatingTable, os: RatingTable, py: RatingTable)
    ensures v in Domain(prog, os, py) <==> InDomain(v, prog, os, py)
  {
    var axes := Axes(prog, os, py);
    var points := Product(axes);
    var d := Domain(prog, os, py);
    if v in d {
      var k :| 0 <= k < |d| && d[k] == v;
      ProductMembers(axes, points[k]);
      FitsInDomain(points[k], prog, os, py);
    }
    if InDomain(v, prog, os, py) {
      FromVarsFits(v, prog, os, py);
      ProductMembers(axes, FromVars(v));
      var k :| 0 <= k < |points| && points[k] == FromVars(v);
      assert d[k] == v;
    }
  }

  /** Only the three rating-table axes can be empty; the others have two
      or three values. */
  lemma AxesSizes(prog: RatingTable, os: RatingTable, py: RatingTable)
    ensures var axes := Axes(prog, os, py);
            && |axes| == 11
            && |axes[7]| == |prog.entries| && |axes[8]| == |os.entries| && |axes[10]| == |py.entries|
            && forall i :: 0 <= i < 11 && i != 7 && i != 8 && i != 10 ==> |axes[i]| >= 2
  {
  }

  /** The domain is empty exactly when one of the rating tables is. */
  lemma DomainEmpty(prog: RatingTable, os: RatingTable, py: RatingTable)
    ensures Domain(prog, os, py) == [] <==>
              |prog.entries| == 0 || |os.entries| == 0 || |py.entries| == 0
  {
    var axes := Axes(prog, os, py);
    ProductEmpty(axes);
    AxesSizes(prog, os, py);
    assert |Domain(prog, os, py)| == |Product(axes)|;
    if |prog.entries| == 0 { assert axes[7] == []; }
    if |os.entries| == 0 { assert axes[8] == []; }
    if |py.entries| == 0 { assert axes[10] == []; }
  }

  function SeqMin(s: seq<real>): (m: real)
    requires |s| > 0
    ensures m in s && forall k :: 0 <= k < |s| ==> m <= s[k]
  {
    if |s| == 1 then s[0]
    else
      var m := SeqMin(s[1..]);
      assert forall k :: 1 <= k < |s| ==> s[k] == s[1..][k - 1];
      if s[0] <= m then s[0] else m
  }

  function SeqMax(s: seq<real>): (m: real)
    requires |s| > 0
    ensures m in s && forall k :: 0 <= k < |s| ==> s[k] <= m
  {
    if |s| == 1 then s[0]
    else
      var m := SeqMax(s[1..]);
      assert forall k :: 1 <= k < |s| ==> s[k] == s[1..][k - 1];
      if m <= s[0] then s[0] else m
  }

  /** `find_min_max(formula, ...)`: the least and greatest value of the
      formula over the domain, or two NaNs when the domain is empty. */
  function FindMinMax(f: Formula, prog: RatingTable, os: RatingTable, py: RatingTable)
    : (r: (Float, Float))
    ensures r.0.NaN? <==> |prog.entries| == 0 || |os.entries| == 0 || |py.entries| == 0
    ensures r.0.NaN? <==> r.1.NaN?
  {
    var d := Domain(prog, os, py);
    DomainEmpty(prog, os, py);
    var values := seq(|d|, k requires 0 <= k < |d| => f(d[k]));
    if |values| == 0 then (NaN, NaN) else (Num(SeqMin(values)), Num(SeqMax(values)))
  }

  /** Every point of the domain scores within the bounds. */
  lemma FindMinMaxSound(f: Formula, prog: RatingTable, os: RatingTable, py: RatingTable, v: Vars)
    requires InDomain(v, prog, os, py)
    ensures FindMinMax(f, prog, os, py).0.Num?
    ensures FindMinMax(f, prog, os, py).0.val <= f(v) <= FindMinMax(f, prog, os, py).1.val
  {
    DomainExact(v, prog, os, py);
    var d := Domain(prog, os, py);
    var k :| 0 <= k < |d| && d[k] == v;
    var values := seq(|d|, k requires 0 <= k < |d| => f(d[k]));
    assert values[k] == f(v);
  }

  /** Both bounds are scores of some point of the domain. */
  lemma FindMinMaxAttained(f: Formula, prog: RatingTable, os: RatingTable, py: RatingTable)
    requires FindMinMax(f, prog, os, py).0.Num?
    ensures exists v :: InDomain(v, prog, os, py) && f(v) == FindMinMax(f, prog, os, py).0.val
    ensures exists v :: InDomain(v, prog, os, py) && f(v) == FindMinMax(f, prog, os, py).1.val
  {
    var d := Domain(prog, os, py);
    var values := seq(|d|, k requires 0 <= k < |d| => f(d[k]));
    var r := FindMinMax(f, prog, os, py);
    var i :| 0 <= i < |values| && values[i] == r.0.val;
    var j :| 0 <= j < |values| && values[j] == r.1.val;
    DomainExact(d[i], prog, os, py);
    DomainExact(d[j], prog, os, py);
  }
}

=== FILE: buckets.dfy ===
/** Splitting the ranked list into the three mailing lists of `do_write`. */
module Buckets {
  import opened Equivs
  import opened Ranking

  /** The list a ranked applicant is written to. */
  datatype Bucket = Accepted | SameLab | Rejected

  /** `rank < accept_count and count[rank] == 1`: accepted, and alone on
      that rank. */
  predicate IsAccepted(ranks: seq<nat>, acceptCount: int, i: nat)
    requires i < |ranks|
  {
    ranks[i] < acceptCount && multiset(ranks)[ranks[i]] == 1
  }

  /** `rank < accept_count and count[rank] != 1`: accepted, but the rank is
      shared with other members of the same lab. */
  predicate IsSameLab(ranks: seq<nat>, acceptCount: int, i: nat)
    requires i < |ranks|
  {
    ranks[i] < acceptCount && multiset(ranks)[ranks[i]] != 1
  }

  /** `rank >= accept_count`. */
  predicate IsRejected(ranks: seq<nat>, acceptCount: int, i: nat)
    requires i < |ranks|
  {
    ranks[i] >= acceptCount
  }

  predicate InBucket(ranks: seq<nat>, acceptCount: int, i: nat, b: Bucket)
    requires i < |ranks|
  {
    match b
    case Accepted => IsAccepted(ranks, acceptCount, i)
    case SameLab => IsSameLab(ranks, acceptCount, i)
    case Rejected => IsRejected(ranks, acceptCount, i)
  }

  /** The positions among the first `n` that go to list `b`, in order. */
  function SelectPrefix(ranks: seq<nat>, acceptCount: int, b: Bucket, n: nat): (r: seq<nat>)
    requires n <= |ranks|
    ensures forall k, l :: 0 <= k < l < |r| ==> r[k] < r[l]
    ensures forall i :: i in r <==> 0 <= i < n && InBucket(ranks, acceptCount, i, b)
  {
    if n == 0 then []
    else
      var r := SelectPrefix(ranks, acceptCount, b, n - 1);
      assert forall k :: 0 <= k < |r| ==> r[k] in r && r[k] < n - 1;
      if InBucket(ranks, acceptCount, n - 1, b) then r + [n - 1] else r
  }

  /** The ranked positions written to list `b`, in ranked order. */
  function Select(ranks: seq<nat>, acceptCount: int, b: Bucket): (r: seq<nat>)
    ensures forall k, l :: 0 <= k < l < |r| ==> r[k] < r[l]
    ensures forall i :: i in r <==> 0 <= i < |ranks| && InBucket(ranks, acceptCount, i, b)
  {
    SelectPrefix(ranks, acceptCount, b, |ranks|)
  }

  /** Every ranked applicant is on exactly one of the three lists. */
  lemma BucketsPartition(ranks: seq<nat>, acceptCount: int, i: nat)
    requires i < |ranks|
    ensures (i in Select(ranks, acceptCount, Accepted))
            || (i in Select(ranks, acceptCount, SameLab))
            || (i in Select(ranks, acceptCount, Rejected))
    ensures !(i in Select(ranks, acceptCount, Accepted) && i in Select(ranks, acceptCount, SameLab))
    ensures !(i in Select(ranks, acceptCount, Accepted) && i in Select(ranks, acceptCount, Rejected))
    ensures !(i in Select(ranks, acceptCount, SameLab) && i in Select(ranks, acceptCount, Rejected))
  {
  }

  lemma {:induction false} PrefixSizes(ranks: seq<nat>, acceptCount: int, n: nat)
    requires n <= |ranks|
    ensures |SelectPrefix(ranks, acceptCount, Accepted, n)|
            + |SelectPrefix(ranks, acceptCount, SameLab, n)|
            + |SelectPrefix(ranks, acceptCount, Rejected, n)| == n
  {
    if n > 0 {
      PrefixSizes(ranks, acceptCount, n - 1);
    }
  }

  /** The three lists together are exactly as long as the ranked list. */
  lemma BucketSizes(ranks: seq<nat>, acceptCount: int)
    ensures |Select(ranks, acceptCount, Accepted)| + |Select(ranks, acceptCount, SameLab)|
            + |Select(ranks, acceptCount, Rejected)| == |ranks|
  {
    PrefixSizes(ranks, acceptCount, |ranks|);
  }

  /** A value occurs once in a sequence exactly when no other position holds
      it. */
  lemma CountOne(s: seq<nat>, i: nat)
    requires i < |s|
    ensures multiset(s)[s[i]] == 1 <==> forall j :: 0 <= j < |s| && j != i ==> s[j] != s[i]
  {
    var v := s[i];
    assert s == s[..i] + [v] + s[i + 1..];
    assert multiset(s) == multiset(s[..i]) + multiset{v} + multiset(s[i + 1..]);
    if forall j :: 0 <= j < |s| && j != i ==> s[j] != v {
      assert v !in s[..i] && v !in s[i + 1..];
    } else {
      var j :| 0 <= j < |s| && j != i && s[j] == v;
      if j < i {
        assert s[..i][j] == v;
        assert v in multiset(s[..i]);
      } else {
        assert s[i + 1..][j - i - 1] == v;
        assert v in multiset(s[i + 1..]);
      }
    }
  }

  /** On the output of the ranking, an accepted applicant is one whose lab
      has no other applicant in the list; same-lab ones share their lab. */
  lemma AcceptedIffAloneInLab(t: EquivTable, ranked: seq<Applicant>, acceptCount: int, i: nat)
    requires i < |ranked|
    ensures var ranks := RanksOf(Labs(t, ranked));
            IsAccepted(ranks, acceptCount, i) <==>
              ranks[i] < acceptCount
              && forall j :: 0 <= j < |ranked| && j != i ==> LabOf(t, ranked[j]) != LabOf(t, ranked[i])
  {
    var labs := Labs(t, ranked);
    var ranks := RanksOf(labs);
    CountOne(ranks, i);
    AloneIffUniqueRank(labs, i);
    LabsAlone(t, ranked, i);
  }

  lemma LabsAlone(t: EquivTable, ranked: seq<Applicant>, i: nat)
    requires i < |ranked|
    ensures var labs := Labs(t, ranked);
            (forall j :: 0 <= j < |labs| && j != i ==> labs[j] != labs[i])
            <==> (forall j :: 0 <= j < |ranked| && j != i ==> LabOf(t, ranked[j]) != LabOf(t, ranked[i]))
  {
    var labs := Labs(t, ranked);
    forall j | 0 <= j < |ranked|
      ensures labs[j] == LabOf(t, ranked[j])
    {
    }
  }

  /** No other position shares the rank of position `i` exactly when no
      other position shares its lab. */
  lemma AloneIffUniqueRank(labs: seq<string>, i: nat)
    requires i < |labs|
    ensures (forall j :: 0 <= j < |labs| && j != i ==> RanksOf(labs)[j] != RanksOf(labs)[i])
            <==> (forall j :: 0 <= j < |labs| && j != i ==> labs[j] != labs[i])
  {
    forall j | 0 <= j < |labs|
      ensures RanksOf(labs)[j] == RanksOf(labs)[i] <==> labs[j] == labs[i]
    {
      SameRankIffSameLab(labs, i, j);
    }
  }
}

=== FILE: equivs.dfy ===
/** Affiliation equivalences: the `equivs` configuration section, its
    `list_of_equivs` values, and `_equiv_master`. */
module Equivs {
  import opened Wrappers
  import opened Text

  /** The `equivs` section in iteration order: each canonical name with the
      spellings listed as equivalent to it. */
  type EquivTable = seq<(string, seq<string>)>

  /** `variant` equals the entry's name or one of its listed spellings,
      ignoring case. */
  predicate Matches(entry: (string, seq<string>), variant: string) {
    || Lower(variant) == Lower(entry.0)
    || exists k :: 0 <= k < |entry.1| && Lower(variant) == Lower(entry.1[k])
  }

  predicate Matched(t: EquivTable, variant: string) {
    exists i :: 0 <= i < |t| && Matches(t[i], variant)
  }

  /** The position of the first entry that `variant` matches. */
  function FirstMatch(t: EquivTable, variant: string): (r: Option<nat>)
    ensures r.None? <==> !Matched(t, variant)
    ensures r.Some? ==> r.value < |t| && Matches(t[r.value], variant)
                        && forall j :: 0 <= j < r.value ==> !Matches(t[j], variant)
  {
    if |t| == 0 then None
    else if Matches(t[0], variant) then Some(0)
    else
      var r := FirstMatch(t[1..], variant);
      assert forall i :: 1 <= i < |t| ==> t[i] == t[1..][i - 1];
      if r.None? then None else Some(r.value + 1)
  }

  /** `_equiv_master(variant)`: the name of the first entry the variant
      matches; an unmatched variant is returned stripped. */
  function EquivMaster(t: EquivTable, variant: string): (r: string)
    ensures Matched(t, variant) ==>
              exists i :: 0 <= i < |t| && Matches(t[i], variant) && r == t[i].0
                          && forall j :: 0 <= j < i ==> !Matches(t[j], variant)
    ensures !Matched(t, variant) ==> r == Strip(variant)
  {
    match FirstMatch(t, variant)
    case Some(i) => t[i].0
    case None => Strip(variant)
  }

  /** Variants that differ only in letter case are canonicalised alike. */
  lemma EquivMasterIgnoresCase(t: EquivTable, v: string, w: string)
    requires Lower(v) == Lower(w)
    ensures Matched(t, v) <==> Matched(t, w)
    ensures Matched(t, v) ==> EquivMaster(t, v) == EquivMaster(t, w)
  {
    assert forall i :: 0 <= i < |t| ==> (Matches(t[i], v) <==> Matches(t[i], w));
  }

  /** No entry is shadowed by an earlier one: an entry's own name matches
      no entry before it. */
  predicate Unshadowed(t: EquivTable) {
    forall i, j :: 0 <= j < i < |t| ==> !Matches(t[j], t[i].0)
  }

  /** On a table without shadowed entries, canonicalising a matched variant
      twice gives the same name as canonicalising it once. */
  lemma EquivMasterIdempotent(t: EquivTable, variant: string)
    requires Unshadowed(t) && Matched(t, variant)
    ensures EquivMaster(t, EquivMaster(t, variant)) == EquivMaster(t, variant)
  {
    var i :| 0 <= i < |t| && Matches(t[i], variant) && EquivMaster(t, variant) == t[i].0
             && forall j :: 0 <= j < i ==> !Matches(t[j], variant);
    var key := t[i].0;
    assert Matches(t[i], key);
    var i' :| 0 <= i' < |t| && Matches(t[i'], key) && EquivMaster(t, key) == t[i'].0
              && forall j :: 0 <= j < i' ==> !Matches(t[j], key);
    assert i' == i;
  }

  /** A table where the first entry lists the second entry's name as a
      spelling: the second name is then never returned, and
      canonicalisation is not idempotent on it. */
  lemma ShadowedEntry()
    ensures EquivMaster([("Uni A", ["Uni B"]), ("Uni B", [])], "uni b") == "Uni A"
  {
    var t := [("Uni A", ["Uni B"]), ("Uni B", [])];
    assert Lower("uni b") == "uni b";
    assert Lower("Uni B") == "uni b";
    assert t[0].1[0] == "Uni B";
    assert Matches(t[0], "uni b");
  }

  /** Without shadowing, idempotence can still fail for an unmatched
      variant: it is returned stripped, and the stripped form may match. */
  lemma PaddedSpelling()
    ensures var t := [("MIT", ["m.i.t."])];
            && Unshadowed(t)
            && EquivMaster(t, "m.i.t. ") == "m.i.t."
            && EquivMaster(t, EquivMaster(t, "m.i.t. ")) == "MIT"
  {
    var t := [("MIT", ["m.i.t."])];
    PaddedUnmatched(t);
    PaddedStrips();
    assert Matches(t[0], t[0].1[0]);
  }

  lemma PaddedUnmatched(t: EquivTable)
    requires t == [("MIT", ["m.i.t."])]
    ensures !Matched(t, "m.i.t. ")
  {
    assert |Lower("m.i.t. ")| == 7 && |Lower("MIT")| == 3 && |Lower(t[0].1[0])| == 6;
  }

  lemma PaddedStrips()
    ensures Strip("m.i.t. ") == "m.i.t."
  {
    assert AllSpace(" ") && IsStripped("m.i.t.");
    StripPadded([], "m.i.t.", " ");
    assert [] + "m.i.t." + " " == "m.i.t. ";
  }

  /** An unmatched variant whose stripped form is unmatched too is
      canonicalised once and for all. */
  lemma EquivMasterIdempotentUnmatched(t: EquivTable, variant: string)
    requires !Matched(t, variant) && !Matched(t, Strip(variant))
    ensures EquivMaster(t, EquivMaster(t, variant)) == EquivMaster(t, variant)
  {
    StripIdempotent(Strip(variant));
  }

  /** `list_of_equivs(arg)`: the `=`-separated items of `arg`, each stripped;
      no items when there is no argument. */
  function ParseEquivs(arg: Option<string>): (r: seq<string>)
    ensures arg.None? ==> r == []
    ensures arg.Some? ==> |r| >= 1
    ensures forall k :: 0 <= k < |r| ==> IsStripped(r[k]) && '=' !in r[k]
    ensures arg.Some? ==>
              && |r| == |Split(arg.value, '=')|
              && forall k :: 0 <= k < |r| ==> r[k] == Strip(Split(arg.value, '=')[k])
  {
    match arg
    case None => []
    case Some(s) =>
      var pieces := Split(s, '=');
      StripAllItems(pieces, '=');
      forall k | 0 <= k < |pieces| ensures StripAll(pieces)[k] == Strip(pieces[k]) {
        StripAllAt(pieces, k);
      }
      StripAll(pieces)
  }

  /** An argument without `=` is one name, stripped. */
  lemma ParseSingle(a: string)
    requires '=' !in a
    ensures ParseEquivs(Some(a)) == [Strip(a)]
  {
    SplitNoSeparator(a, '=');
  }

  /** The text before the first `=` is the first name, stripped, and the
      rest of the argument gives the remaining names. */
  lemma ParseCons(a: string, b: string)
    requires '=' !in a
    ensures ParseEquivs(Some(a + "=" + b)) == [Strip(a)] + ParseEquivs(Some(b))
  {
    SplitAppend(a, b, '=');
    var r, rest := ParseEquivs(Some(a + "=" + b)), ParseEquivs(Some(b));
    assert |r| == 1 + |rest|;
    forall k | 0 <= k < |r| ensures r[k] == ([Strip(a)] + rest)[k] {
      if k > 0 {
        assert Split(a + "=" + b, '=')[k] == Split(b, '=')[k - 1];
      }
    }
  }

  /** `str(list_of_equivs)`: the items joined with `' = '`. */
  function FormatEquivs(items: seq<string>): (r: string)
    ensures |items| == 0 ==> r == []
    ensures |items| == 1 ==> r == items[0]
    ensures |items| > 0 ==> items[0] <= r && EndsWith(r, items[|items| - 1])
  {
    Join(items, " = ")
  }

  /** Every piece stripped, in order. */
  function StripAll(pieces: seq<string>): (r: seq<string>)
    ensures |r| == |pieces|
  {
    if |pieces| == 0 then [] else [Strip(pieces[0])] + StripAll(pieces[1..])
  }

  lemma {:induction false} StripAllAt(pieces: seq<string>, k: nat)
    requires k < |pieces|
    ensures StripAll(pieces)[k] == Strip(pieces[k])
  {
    if k > 0 {
      var tail := pieces[1..];
      assert StripAll(pieces)[k] == StripAll(tail)[k - 1];
      StripAllAt(tail, k - 1);
      assert tail[k - 1] == pieces[k];
    }
  }

  /** Stripping every piece leaves each one stripped and brings in no
      separator. */
  lemma StripAllItems(pieces: seq<string>, c: char)
    requires forall k :: 0 <= k < |pieces| ==> c !in pieces[k]
    ensures forall k :: 0 <= k < |pieces| ==> IsStripped(StripAll(pieces)[k]) && c !in StripAll(pieces)[k]
  {
    forall k | 0 <= k < |pieces| ensures IsStripped(StripAll(pieces)[k]) && c !in StripAll(pieces)[k] {
      StripAllAt(pieces, k);
      StripExcludes(pieces[k], c);
    }
  }

  lemma StripAllCons(p: string, tail: seq<string>)
    ensures StripAll([p] + tail) == [Strip(p)] + StripAll(tail)
  {
    assert ([p] + tail)[1..] == tail;
  }

  /** The pieces that splitting `w + FormatEquivs(items)` at `=` yields,
      with `sp` the space on either side of each `=`: each item with that
      padding, the first one after `w`. */
  function PrintedPieces(w: string, sp: string, items: seq<string>): (r: seq<string>)
    requires |items| >= 1
    ensures |r| == |items|
    decreases |items|
  {
    if |items| == 1 then [w + items[0]]
    else [w + items[0] + sp] + PrintedPieces(sp, sp, items[1..])
  }

  /** The `k`-th printed piece: its leading padding, the item, and its
      trailing padding. */
  lemma {:induction false} PrintedPieceAt(w: string, sp: string, items: seq<string>, k: nat)
    requires k < |items|
    ensures PrintedPieces(w, sp, items)[k]
            == (if k == 0 then w else sp) + items[k] + (if k == |items| - 1 then [] else sp)
    decreases |items|
  {
    if k == 0 && |items| == 1 {
      assert w + items[0] + [] == w + items[0];
    } else if k > 0 {
      PrintedPieceAt(sp, sp, items[1..], k - 1);
    }
  }

  /** Printed text `w x = f` splits into `w x ` and the pieces of ` f`. */
  lemma SplitNext(w: string, x: string, f: string)
    requires '=' !in w && '=' !in x
    ensures Split(w + (x + " = " + f), '=') == [w + x + " "] + Split(" " + f, '=')
  {
    assert w + (x + " = " + f) == (w + x + " ") + ['='] + (" " + f);
    assert '=' !in w + x + " ";
    SplitAppend(w + x + " ", " " + f, '=');
  }

  lemma {:induction false} SplitPrinted(w: string, items: seq<string>)
    requires '=' !in w && |items| >= 1
    requires forall k :: 0 <= k < |items| ==> '=' !in items[k]
    ensures Split(w + FormatEquivs(items), '=') == PrintedPieces(w, " ", items)
    decreases |items|
  {
    var x := items[0];
    if |items| == 1 {
      assert w + FormatEquivs(items) == w + x;
      assert '=' !in w + x;
      SplitNoSeparator(w + x, '=');
    } else {
      SplitPrinted(" ", items[1..]);
      assert w + FormatEquivs(items) == w + (x + " = " + FormatEquivs(items[1..]));
      SplitNext(w, x, FormatEquivs(items[1..]));
    }
  }

  lemma StripPrinted(w: string, sp: string, items: seq<string>)
    requires AllSpace(w) && AllSpace(sp) && |items| >= 1
    requires forall k :: 0 <= k < |items| ==> IsStripped(items[k])
    ensures StripAll(PrintedPieces(w, sp, items)) == items
  {
    var pieces := PrintedPieces(w, sp, items);
    forall k | 0 <= k < |items| ensures StripAll(pieces)[k] == items[k] {
      var lead, trail := if k == 0 then w else sp, if k == |items| - 1 then [] else sp;
      StripAllAt(pieces, k);
      PrintedPieceAt(w, sp, items, k);
      StripPadded(lead, items[k], trail);
    }
  }

  /** Reading back a printed list of stripped, `=`-free items gives the
      same items. */
  lemma ParseFormat(items: seq<string>)
    requires |items| >= 1
    requires forall k :: 0 <= k < |items| ==> IsStripped(items[k]) && '=' !in items[k]
    ensures ParseEquivs(Some(FormatEquivs(items))) == items
  {
    SplitPrinted([], items);
    StripPrinted([], " ", items);
    assert [] + FormatEquivs(items) == FormatEquivs(items);
  }

  /** Printing a parsed list and parsing it again changes nothing. */
  lemma FormatParse(s: string)
    ensures ParseEquivs(Some(FormatEquivs(ParseEquivs(Some(s))))) == ParseEquivs(Some(s))
  {
    ParseFormat(ParseEquivs(Some(s)));
  }
}

=== FILE: grades.dfy ===
/** Averaging the reviewers' grades (`list_of_float.mean`). */
module Grades {
  import opened Wrappers

  /** A Python float that is either NaN or an ordinary number. */
  datatype Float = NaN | Num(val: real)

  /** The grades that were given, in order (`None` entries dropped). */
  function Given(grades: seq<Option<real>>): (v: seq<real>)
    ensures |v| <= |grades|
    ensures |v| == 0 <==> forall i :: 0 <= i < |grades| ==> grades[i].None?
  {
    if |grades| == 0 then []
    else
      var rest := Given(grades[1..]);
      match grades[0]
      case Some(x) => [x] + rest
      case None => rest
  }

  /** The positions, from `from` on, of the grades that were given, in
      increasing order. */
  function PositionsFrom(grades: seq<Option<real>>, from: nat): (pos: seq<int>)
    requires from <= |grades|
    ensures forall k :: 0 <= k < |pos| ==> from <= pos[k] < |grades| && grades[pos[k]].Some?
    ensures forall k, l :: 0 <= k < l < |pos| ==> pos[k] < pos[l]
    decreases |grades| - from
  {
    if from == |grades| then []
    else if grades[from].Some? then [from] + PositionsFrom(grades, from + 1)
    else PositionsFrom(grades, from + 1)
  }

  /** Every position from `from` on that holds a grade is listed. */
  lemma {:induction false} PositionsComplete(grades: seq<Option<real>>, from: nat)
    requires from <= |grades|
    ensures forall i :: from <= i < |grades| && grades[i].Some? ==> i in PositionsFrom(grades, from)
    decreases |grades| - from
  {
    if from < |grades| {
      PositionsComplete(grades, from + 1);
    }
  }

  /** `v[k]` is the grade at position `pos[k]`, for every `k`. */
  predicate GradesAt(grades: seq<Option<real>>, pos: seq<int>, v: seq<real>) {
    |pos| == |v| && forall k :: 0 <= k < |v| ==> 0 <= pos[k] < |grades| && grades[pos[k]] == Some(v[k])
  }

  lemma GradesAtCons(grades: seq<Option<real>>, p: int, x: real, pos: seq<int>, v: seq<real>)
    requires GradesAt(grades, pos, v) && 0 <= p < |grades| && grades[p] == Some(x)
    ensures GradesAt(grades, [p] + pos, [x] + v)
  {
    forall k | 1 <= k < |v| + 1
      ensures 0 <= ([p] + pos)[k] < |grades| && grades[([p] + pos)[k]] == Some(([x] + v)[k])
    {
      assert ([p] + pos)[k] == pos[k - 1] && ([x] + v)[k] == v[k - 1];
    }
  }

  /** The given grades, from `from` on, are the grades at the given
      positions, one for one: the valid grades keep their order and their
      repetitions. */
  lemma {:induction false} GivenExact(grades: seq<Option<real>>, from: nat)
    requires from <= |grades|
    ensures GradesAt(grades, PositionsFrom(grades, from), Given(grades[from..]))
    decreases |grades| - from
  {
    if from < |grades| {
      GivenExact(grades, from + 1);
      GivenAt(grades, from);
      if grades[from].Some? {
        GradesAtCons(grades, from, grades[from].value,
                     PositionsFrom(grades, from + 1), Given(grades[from + 1..]));
      }
    } else {
      assert grades[from..] == [];
    }
  }

  /** Unfolding `Given` once at position `from`. */
  lemma GivenAt(grades: seq<Option<real>>, from: nat)
    requires from < |grades|
    ensures Given(grades[from..]) == if grades[from].Some? then [grades[from].value] + Given(grades[from + 1..])
                                     else Given(grades[from + 1..])
  {
    assert grades[from..][1..] == grades[from + 1..];
  }

  function Sum(v: seq<real>): real {
    if |v| == 0 then 0.0 else v[0] + Sum(v[1..])
  }

  /** `mean()`: NaN when no reviewer gave a grade, otherwise the arithmetic
      mean of the grades that were given. */
  function Mean(grades: seq<Option<real>>): (r: Float)
    ensures r.NaN? <==> forall i :: 0 <= i < |grades| ==> grades[i].None?
    ensures r.Num? ==> MeanOf(r.val, Given(grades))
  {
    var valid := Given(grades);
    if |valid| == 0 then NaN else Num(Average(valid))
  }

  /** `m` is the mean of the non-empty `v`: `|v|` copies of it add up to
      the sum of `v`. */
  predicate MeanOf(m: real, v: seq<real>) {
    |v| > 0 && m * (|v| as real) == Sum(v)
  }

  /** `sum(valid) / len(valid)`. */
  function Average(v: seq<real>): (m: real)
    requires |v| > 0
    ensures MeanOf(m, v)
  {
    Sum(v) / (|v| as real)
  }

  lemma {:induction false} SumAbove(v: seq<real>, m: real)
    requires |v| > 0
    requires forall k :: 0 <= k < |v| ==> v[k] > m
    ensures Sum(v) > (|v| as real) * m
  {
    if |v| > 1 {
      SumAbove(v[1..], m);
    }
  }

  lemma {:induction false} SumBelow(v: seq<real>, m: real)
    requires |v| > 0
    requires forall k :: 0 <= k < |v| ==> v[k] < m
    ensures Sum(v) < (|v| as real) * m
  {
    if |v| > 1 {
      SumBelow(v[1..], m);
    }
  }

  /** Some given grade is at most the mean. */
  lemma SomeGradeBelowMean(v: seq<real>, m: real)
    requires |v| > 0 && m * (|v| as real) == Sum(v)
    ensures exists k :: 0 <= k < |v| && v[k] <= m
  {
    if forall k :: 0 <= k < |v| ==> v[k] > m {
      SumAbove(v, m);
      assert false;
    }
  }

  /** Some given grade is at least the mean. */
  lemma SomeGradeAboveMean(v: seq<real>, m: real)
    requires |v| > 0 && m * (|v| as real) == Sum(v)
    ensures exists k :: 0 <= k < |v| && v[k] >= m
  {
    if forall k :: 0 <= k < |v| ==> v[k] < m {
      SumBelow(v, m);
      assert false;
    }
  }

  /** The mean lies between the smallest and the largest grade given: some
      given grade is at most the mean and some given grade is at least it. */
  lemma MeanBetween(grades: seq<Option<real>>)
    requires Mean(grades).Num?
    ensures exists i :: 0 <= i < |grades| && grades[i].Some? && grades[i].value <= Mean(grades).val
    ensures exists i :: 0 <= i < |grades| && grades[i].Some? && grades[i].value >= Mean(grades).val
  {
    GradeAtMostMean(grades);
    GradeAtLeastMean(grades);
  }

  lemma GradeAtMostMean(grades: seq<Option<real>>)
    requires Mean(grades).Num?
    ensures exists i :: 0 <= i < |grades| && grades[i].Some? && grades[i].value <= Mean(grades).val
  {
    var v, m := Given(grades), Mean(grades).val;
    SomeGradeBelowMean(v, m);
    var lo :| 0 <= lo < |v| && v[lo] <= m;
    GivenFrom(grades, lo);
  }

  lemma GradeAtLeastMean(grades: seq<Option<real>>)
    requires Mean(grades).Num?
    ensures exists i :: 0 <= i < |grades| && grades[i].Some? && grades[i].value >= Mean(grades).val
  {
    var v, m := Given(grades), Mean(grades).val;
    SomeGradeAboveMean(v, m);
    var hi :| 0 <= hi < |v| && v[hi] >= m;
    GivenFrom(grades, hi);
  }

  /** The `k`-th given grade was given by some reviewer. */
  lemma GivenFrom(grades: seq<Option<real>>, k: nat)
    requires k < |Given(grades)|
    ensures exists i :: 0 <= i < |grades| && grades[i] == Some(Given(grades)[k])
  {
    assert grades[0..] == grades;
    GivenExact(grades, 0);
    var i := PositionsFrom(grades, 0)[k];
    assert 0 <= i < |grades| && grades[i] == Some(Given(grades)[k]);
  }

  /** The valid grades are exactly the values of the non-missing entries. */
  lemma {:induction false} GivenMembers(grades: seq<Option<real>>)
    ensures forall x :: x in Given(grades) <==> Some(x) in grades
  {
    if |grades| > 0 {
      GivenMembers(grades[1..]);
      assert grades == [grades[0]] + grades[1..];
    }
  }

  /** When every reviewer who graded gave the same grade `g`, the mean is `g`. */
  lemma MeanUnanimous(grades: seq<Option<real>>, g: real)
    requires exists i :: 0 <= i < |grades| && grades[i].Some?
    requires forall i :: 0 <= i < |grades| && grades[i].Some? ==> grades[i].value == g
    ensures Mean(grades) == Num(g)
  {
    MeanBetween(grades);
  }
}

=== FILE: groups.dfy ===
/** Preparing the confirmed participants for group balancing
    (`participants`, `extract_data`, `gslice` of the create_groups plugin). */
module Groups {
  import opened Wrappers
  import opened Text

  /** The application fields the groups are balanced on, in `PARMS_WEIGHTS`
      order. */
  datatype Field = Gender | Python | Programming | Vcs | OpenSource

  const Fields: seq<Field> := [Gender, Python, Programming, Vcs, OpenSource]

  /** The parts of an application the plugin reads. */
  datatype Person = Person(name: string, lastname: string, gender: string, python: string,
                           programming: string, vcs: string, openSource: string)

  /** `person.fullname`: first and last name separated by a space, so a
      first name without spaces is what comes before the first space. */
  function FullName(p: Person): (r: string)
    ensures p.name <= r && EndsWith(r, p.lastname)
    ensures |r| == |p.name| + 1 + |p.lastname| && r[|p.name|] == ' '
    ensures ' ' !in p.name ==> Before(r, ' ') == p.name
  {
    var r := p.name + (" " + p.lastname);
    if ' ' in p.name then r else BeforeAppend(p.name, " " + p.lastname, ' '); r
  }

  function Attr(p: Person, f: Field): string {
    match f
    case Gender => p.gender
    case Python => p.python
    case Programming => p.programming
    case Vcs => p.vcs
    case OpenSource => p.openSource
  }

  /** The `labels` section: lowercased full name to that person's labels. */
  type Labels = map<string, string>

  predicate Confirmed(labels: Labels, p: Person) {
    Lower(FullName(p)) in labels && Contains(labels[Lower(FullName(p))], "CONFIRMED")
  }

  /** The positions, among the first `n` applications, of the confirmed
      participants, in application order. */
  function ParticipantsPrefix(apps: seq<Person>, labels: Labels, n: nat): (r: seq<nat>)
    requires n <= |apps|
    ensures forall k, l :: 0 <= k < l < |r| ==> r[k] < r[l]
    ensures forall i :: i in r <==> 0 <= i < n && Confirmed(labels, apps[i])
  {
    if n == 0 then []
    else
      var r := ParticipantsPrefix(apps, labels, n - 1);
      forall k | 0 <= k < |r| ensures r[k] < n - 1 { assert r[k] in r; }
      if Confirmed(labels, apps[n - 1]) then r + [n - 1] else r
  }

  /** `participants()`: the confirmed persons, in application order. */
  function Participants(apps: seq<Person>, labels: Labels): (r: seq<Person>)
    ensures forall k :: 0 <= k < |r| ==> Confirmed(labels, r[k])
  {
    var idx := ParticipantsPrefix(apps, labels, |apps|);
    assert forall k :: 0 <= k < |idx| ==> idx[k] in idx;
    seq(|idx|, k requires 0 <= k < |idx| => apps[idx[k]])
  }

  /** The participants are exactly the persons whose lowercased full name has
      a label entry containing `CONFIRMED`, in application order; persons
      without an entry are skipped. */
  lemma ParticipantsExact(apps: seq<Person>, labels: Labels)
    ensures var r := Participants(apps, labels);
            exists idx: seq<nat> ::
              && |idx| == |r|
              && (forall k, l :: 0 <= k < l < |idx| ==> idx[k] < idx[l])
              && (forall i :: i in idx <==> 0 <= i < |apps| && Confirmed(labels, apps[i]))
              && (forall k :: 0 <= k < |idx| ==> idx[k] < |apps| && r[k] == apps[idx[k]])
  {
    var idx := ParticipantsPrefix(apps, labels, |apps|);
    ParticipantsAt(apps, labels);
    assert |idx| == |Participants(apps, labels)|;
  }

  /** Participant `k` is the application at the `k`-th confirmed position. */
  lemma ParticipantsAt(apps: seq<Person>, labels: Labels)
    ensures var idx := ParticipantsPrefix(apps, labels, |apps|);
            && |Participants(apps, labels)| == |idx|
            && forall k :: 0 <= k < |idx| ==> idx[k] < |apps| && Participants(apps, labels)[k] == apps[idx[k]]
  {
    var idx := ParticipantsPrefix(apps, labels, |apps|);
    assert forall k :: 0 <= k < |idx| ==> idx[k] in idx;
  }

  /** The lookup key for a groups rating: the lowercased attribute cut
      before the first space, then the first `/`, then the first `,`. */
  function GroupKey(attr: string): (k: string)
    ensures ' ' !in k && '/' !in k && ',' !in k
    ensures k <= Lower(attr)
    ensures |k| < |Lower(attr)| ==> Lower(attr)[|k|] in {' ', '/', ','}
  {
    Before(Before(Before(Lower(attr), ' '), '/'), ',')
  }

  /** The key is already normalised: normalising it again changes nothing. */
  lemma GroupKeyIdempotent(attr: string)
    ensures GroupKey(GroupKey(attr)) == GroupKey(attr)
  {
    var k := GroupKey(attr);
    var low := Lower(attr);
    assert Lower(k) == k by {
      LowerIdempotent(attr);
      assert k == low[..|k|];
      assert Lower(low)[..|k|] == low[..|k|];
    }
    BeforeAbsent(k, ' ');
    BeforeAbsent(k, '/');
    BeforeAbsent(k, ',');
  }

  /** The rating tables of the `groups_<field>_rating` sections. */
  type GroupTables = Field -> map<string, real>

  /** Why `extract_data` fails: a participant's answer has no entry in a
      field's table (the `KeyError` of `value[attr]`), or the participant
      count differs from the accept count. */
  datatype ExtractError = MissingGroupRating(field: Field, key: string)
                        | WrongCount(found: nat, expected: nat)

  /** One participant's ratings in field order, then their number. */
  type Row = seq<real>

  /** `value[attr]` succeeds: the table of field `f` rates the person's
      normalised answer. */
  predicate HasRating(tables: GroupTables, p: Person, f: Field) {
    GroupKey(Attr(p, f)) in tables(f)
  }

  function Rating(tables: GroupTables, p: Person, f: Field): real
    requires HasRating(tables, p, f)
  {
    tables(f)[GroupKey(Attr(p, f))]
  }

  predicate Rated(tables: GroupTables, p: Person) {
    forall f :: 0 <= f < |Fields| ==> HasRating(tables, p, Fields[f])
  }

  /** The normalised answers of person `p`, one per field, in field order. */
  function Keys(p: Person): (keys: seq<string>)
    ensures |keys| == |Fields|
    ensures forall f :: 0 <= f < |Fields| ==> keys[f] == GroupKey(Attr(p, Fields[f]))
  {
    seq(|Fields|, f requires 0 <= f < |Fields| => GroupKey(Attr(p, Fields[f])))
  }

  /** The rating tables, one per field, in field order. */
  function TableSeq(tables: GroupTables): (ms: seq<map<string, real>>)
    ensures |ms| == |Fields|
    ensures forall f :: 0 <= f < |Fields| ==> ms[f] == tables(Fields[f])
  {
    seq(|Fields|, f requires 0 <= f < |Fields| => tables(Fields[f]))
  }

  /** The inner loop of `extract_data`: looks up `keys[g]` in table `ms[g]`
      for each field in order, giving the ratings, or the position of the
      first field whose key its table lacks. */
  function RatesOf(ms: seq<map<string, real>>, keys: seq<string>): (r: Result<seq<real>, nat>)
    requires |keys| == |ms|
    ensures r.Success? <==> forall g :: 0 <= g < |ms| ==> keys[g] in ms[g]
    ensures r.Success? ==>
              && |r.value| == |ms|
              && forall g :: 0 <= g < |ms| ==> keys[g] in ms[g] && r.value[g] == ms[g][keys[g]]
    ensures r.Failure? ==>
              && r.error < |ms| && keys[r.error] !in ms[r.error]
              && forall h :: 0 <= h < r.error ==> keys[h] in ms[h]
  {
    if |ms| == 0 then Success([])
    else if keys[0] !in ms[0] then Failure(0)
    else
      var rest := RatesOf(ms[1..], keys[1..]);
      assert forall g :: 1 <= g < |ms| ==> ms[g] == ms[1..][g - 1] && keys[g] == keys[1..][g - 1];
      if rest.Failure? then
        Failure(rest.error + 1)
      else
        var v := [ms[0][keys[0]]] + rest.value;
        assert forall g :: 1 <= g < |ms| ==> v[g] == rest.value[g - 1];
        Success(v)
  }

  /** `rates + [idx]`: the ratings of the answers `keys` in field order,
      followed by the number `idx`. */
  predicate KeyRow(ms: seq<map<string, real>>, keys: seq<string>, idx: nat, row: Row) {
    && |keys| == |ms|
    && |row| == |ms| + 1
    && row[|ms|] == idx as real
    && forall f :: 0 <= f < |ms| ==> keys[f] in ms[f] && row[f] == ms[f][keys[f]]
  }

  predicate KeyRated(ms: seq<map<string, real>>, keys: seq<string>) {
    |keys| == |ms| && forall f :: 0 <= f < |ms| ==> keys[f] in ms[f]
  }

  /** The row of person `p` numbered `idx`: its ratings in field order,
      then `idx`. */
  predicate RowOf(tables: GroupTables, p: Person, idx: nat, row: Row) {
    && |row| == |Fields| + 1
    && row[|Fields|] == idx as real
    && forall f :: 0 <= f < |Fields| ==> HasRating(tables, p, Fields[f]) && row[f] == Rating(tables, p, Fields[f])
  }

  /** The key-level row and rating conditions are the person-level ones. */
  lemma KeysOfPerson(tables: GroupTables, p: Person, idx: nat, row: Row)
    ensures KeyRated(TableSeq(tables), Keys(p)) <==> Rated(tables, p)
    ensures KeyRow(TableSeq(tables), Keys(p), idx, row) <==> RowOf(tables, p, idx, row)
  {
  }

  /** The ratings of one person; a failure names the first field, in field
      order, that is not rated. */
  lemma RatesOfPerson(tables: GroupTables, p: Person)
    ensures var r := RatesOf(TableSeq(tables), Keys(p));
            && (r.Success? <==> Rated(tables, p))
            && (r.Failure? ==> r.error < |Fields| && !HasRating(tables, p, Fields[r.error])
                               && forall h :: 0 <= h < r.error ==> HasRating(tables, p, Fields[h]))
  {
  }

  /** The position of the first answers in `keyss` that some table lacks,
      or `|keyss|` when all of them are rated. */
  function FirstUnrated(ms: seq<map<string, real>>, keyss: seq<seq<string>>): (k: nat)
    ensures k <= |keyss|
    ensures forall j :: 0 <= j < k ==> KeyRated(ms, keyss[j])
    ensures k < |keyss| ==> !KeyRated(ms, keyss[k])
  {
    if |keyss| == 0 then 0
    else if !KeyRated(ms, keyss[0]) then 0
    else
      assert forall j :: 1 <= j < |keyss| ==> keyss[j] == keyss[1..][j - 1];
      1 + FirstUnrated(ms, keyss[1..])
  }

  /** `e` names the first unrated answers of `keyss`, at the first field
      whose table lacks the key. */
  predicate FirstUnratedError(ms: seq<map<string, real>>, keyss: seq<seq<string>>, e: ExtractError) {
    var k := FirstUnrated(ms, keyss);
    && k < |keyss| && |keyss[k]| == |ms| == |Fields|
    && RatesOf(ms, keyss[k]).Failure?
    && e == MissingGroupRating(Fields[RatesOf(ms, keyss[k]).error], keyss[k][RatesOf(ms, keyss[k]).error])
  }

  /** Past rated first answers, the first unrated ones are found in the rest. */
  lemma FirstUnratedErrorCons(ms: seq<map<string, real>>, keyss: seq<seq<string>>, e: ExtractError)
    requires |keyss| > 0 && KeyRated(ms, keyss[0])
    requires FirstUnratedError(ms, keyss[1..], e)
    ensures FirstUnratedError(ms, keyss, e)
  {
    var k := FirstUnrated(ms, keyss[1..]);
    assert FirstUnrated(ms, keyss) == k + 1;
    assert keyss[k + 1] == keyss[1..][k];
  }

  /** The outer loop of `extract_data` on the answers `keyss` of the
      persons, numbered from `first`: their rows in order, or the error for
      the first missing rating. */
  function RowsOf(ms: seq<map<string, real>>, keyss: seq<seq<string>>, first: nat)
    : (r: Result<seq<Row>, ExtractError>)
    requires |ms| == |Fields|
    requires forall k :: 0 <= k < |keyss| ==> |keyss[k]| == |ms|
    ensures r.Success? <==> forall k :: 0 <= k < |keyss| ==> KeyRated(ms, keyss[k])
    ensures r.Success? ==>
              && |r.value| == |keyss|
              && forall k :: 0 <= k < |keyss| ==> KeyRow(ms, keyss[k], first + k, r.value[k])
    ensures r.Failure? ==> FirstUnratedError(ms, keyss, r.error)
  {
    if |keyss| == 0 then Success([])
    else
      match RatesOf(ms, keyss[0])
      case Failure(g) =>
        assert FirstUnrated(ms, keyss) == 0;
        Failure(MissingGroupRating(Fields[g], keyss[0][g]))
      case Success(rates) =>
        var tail := RowsOf(ms, keyss[1..], first + 1);
        assert forall k :: 1 <= k < |keyss| ==> keyss[k] == keyss[1..][k - 1];
        if tail.Failure? then
          FirstUnratedErrorCons(ms, keyss, tail.error);
          Failure(tail.error)
        else
          RatesRow(ms, keyss[0], first);
          KeyRowsCons(ms, keyss, first, rates + [first as real], tail.value);
          Success([rates + [first as real]] + tail.value)
  }

  /** A successful lookup of `keys`, followed by `idx`, is the key-level row
      numbered `idx`. */
  lemma RatesRow(ms: seq<map<string, real>>, keys: seq<string>, idx: nat)
    requires |keys| == |ms| && RatesOf(ms, keys).Success?
    ensures KeyRow(ms, keys, idx, RatesOf(ms, keys).value + [idx as real])
  {
    var rates := RatesOf(ms, keys).value;
    assert forall g :: 0 <= g < |ms| ==> (rates + [idx as real])[g] == rates[g];
  }

  /** Rows numbered from `first + 1` for the later answers, after the row
      numbered `first` for the first answers, are the rows numbered from
      `first`. */
  lemma KeyRowsCons(ms: seq<map<string, real>>, keyss: seq<seq<string>>, first: nat,
                    row: Row, rows: seq<Row>)
    requires |keyss| == |rows| + 1
    requires KeyRow(ms, keyss[0], first, row)
    requires forall k :: 0 <= k < |rows| ==> KeyRow(ms, keyss[1..][k], first + 1 + k, rows[k])
    ensures forall k :: 0 <= k < |keyss| ==> KeyRow(ms, keyss[k], first + k, ([row] + rows)[k])
  {
    forall k | 0 <= k < |keyss| ensures KeyRow(ms, keyss[k], first + k, ([row] + rows)[k]) {
      if k > 0 {
        assert keyss[k] == keyss[1..][k - 1] && ([row] + rows)[k] == rows[k - 1];
      }
    }
  }

  function AllKeys(parts: seq<Person>): (keyss: seq<seq<string>>)
    ensures |keyss| == |parts|
    ensures forall k :: 0 <= k < |parts| ==> keyss[k] == Keys(parts[k])
  {
    seq(|parts|, k requires 0 <= k < |parts| => Keys(parts[k]))
  }

  /** The rows of `parts` are their person-level rows, numbered from 0. */
  lemma RowsOfPersons(tables: GroupTables, parts: seq<Person>)
    ensures var r := RowsOf(TableSeq(tables), AllKeys(parts), 0);
            && (r.Success? <==> forall k :: 0 <= k < |parts| ==> Rated(tables, parts[k]))
            && (r.Success? ==> |r.value| == |parts|
                               && forall k :: 0 <= k < |parts| ==> RowOf(tables, parts[k], k, r.value[k]))
  {
    var ms, keyss := TableSeq(tables), AllKeys(parts);
    var r := RowsOf(ms, keyss, 0);
    forall k | 0 <= k < |parts| ensures KeyRated(ms, keyss[k]) <==> Rated(tables, parts[k]) {
      KeysOfPerson(tables, parts[k], k, []);
    }
    if r.Success? {
      forall k | 0 <= k < |parts| ensures RowOf(tables, parts[k], k, r.value[k]) {
        KeysOfPerson(tables, parts[k], k, r.value[k]);
      }
    }
  }

  /** Participant `k` is the first one that is not rated, and field `g` is
      the first of its fields without a rating: where `value[attr]` raises
      `KeyError`. */
  predicate FirstMissing(tables: GroupTables, parts: seq<Person>, k: int, g: int) {
    && 0 <= k < |parts| && 0 <= g < |Fields|
    && (forall j :: 0 <= j < k ==> Rated(tables, parts[j]))
    && !HasRating(tables, parts[k], Fields[g])
    && (forall h :: 0 <= h < g ==> HasRating(tables, parts[k], Fields[h]))
  }

  /** A failure of the rows names the first unrated participant's first
      unrated field, with that participant's normalised answer. */
  lemma RowsOfPersonsFailure(tables: GroupTables, parts: seq<Person>)
    requires RowsOf(TableSeq(tables), AllKeys(parts), 0).Failure?
    ensures exists k, g | 0 <= k < |parts| && 0 <= g < |Fields| ::
              && FirstMissing(tables, parts, k, g)
              && RowsOf(TableSeq(tables), AllKeys(parts), 0).error
                 == MissingGroupRating(Fields[g], GroupKey(Attr(parts[k], Fields[g])))
  {
    var ms, keyss := TableSeq(tables), AllKeys(parts);
    var k := FirstUnrated(ms, keyss);
    var g := RatesOf(ms, keyss[k]).error;
    forall j | 0 <= j < k ensures Rated(tables, parts[j]) {
      KeysOfPerson(tables, parts[j], j, []);
    }
    RatesOfPerson(tables, parts[k]);
    assert keyss[k] == Keys(parts[k]);
    assert FirstMissing(tables, parts, k, g);
  }

  predicate AllRated(tables: GroupTables, parts: seq<Person>) {
    forall k :: 0 <= k < |parts| ==> Rated(tables, parts[k])
  }

  /** `names` maps `0 .. |parts|-1` to the full names, and `rows[k]` is the
      row of participant `k`. */
  ghost predicate RowsFor(tables: GroupTables, parts: seq<Person>, names: map<nat, string>, rows: seq<Row>) {
    && |rows| == |parts|
    && (forall k: nat :: k in names <==> k < |parts|)
    && (forall k :: 0 <= k < |parts| ==>
          && names[k] == FullName(parts[k])
          && RowOf(tables, parts[k], k, rows[k]))
  }

  /** `e` is the `KeyError` of the first unrated participant's first
      unrated field. */
  predicate MissingError(tables: GroupTables, parts: seq<Person>, e: ExtractError) {
    exists k, g | 0 <= k < |parts| && 0 <= g < |Fields| ::
      && FirstMissing(tables, parts, k, g)
      && e == MissingGroupRating(Fields[g], GroupKey(Attr(parts[k], Fields[g])))
  }

  /** `extract_data()`: a row per confirmed participant, its ratings in
      field order followed by its number, and the table from that number to
      the full name; the participant count must equal `nStudents`. A
      participant without a rating fails first, at its first unrated field,
      before the count is checked. */
  function ExtractData(apps: seq<Person>, labels: Labels, tables: GroupTables, nStudents: nat)
    : (r: Result<(map<nat, string>, seq<Row>), ExtractError>)
    ensures var parts := Participants(apps, labels);
            r.Success? <==> AllRated(tables, parts) && |parts| == nStudents
    ensures var parts := Participants(apps, labels);
            r.Success? ==> RowsFor(tables, parts, r.value.0, r.value.1)
    ensures var parts := Participants(apps, labels);
            !AllRated(tables, parts) ==> r.Failure? && MissingError(tables, parts, r.error)
    ensures var parts := Participants(apps, labels);
            AllRated(tables, parts) && |parts| != nStudents ==> r == Failure(WrongCount(|parts|, nStudents))
  {
    var parts := Participants(apps, labels);
    RateParticipants(tables, parts, nStudents)
  }

  /** The loop of `extract_data` over the participants `parts`, then its
      count check. */
  function RateParticipants(tables: GroupTables, parts: seq<Person>, nStudents: nat)
    : (r: Result<(map<nat, string>, seq<Row>), ExtractError>)
    ensures r.Success? <==> AllRated(tables, parts) && |parts| == nStudents
    ensures r.Success? ==> RowsFor(tables, parts, r.value.0, r.value.1)
    ensures !AllRated(tables, parts) ==> r.Failure? && MissingError(tables, parts, r.error)
    ensures AllRated(tables, parts) && |parts| != nStudents ==> r == Failure(WrongCount(|parts|, nStudents))
  {
    var rowsOf := RowsOf(TableSeq(tables), AllKeys(parts), 0);
    RowsOfPersons(tables, parts);
    match rowsOf
    case Failure(e) =>
      RowsOfPersonsFailure(tables, parts);
      Failure(e)
    case Success(rows) =>
      // the numbers 0 .. |parts|-1 are the keys of `names`, so `len(names)`
      // is the participant count
      var names := map k: nat | k < |parts| :: FullName(parts[k]);
      if |parts| != nStudents then
        Failure(WrongCount(|parts|, nStudents))
      else
        Success((names, rows))
  }

  /** `gslice(i, K)`: the half-open block `[i*K, (i+1)*K)` of group `i`. */
  datatype Slice = Slice(start: nat, stop: nat)

  function GSlice(i: nat, size: nat): Slice {
    Slice(i * size, (i + 1) * size)
  }

  predicate InSlice(x: nat, s: Slice) {
    s.start <= x < s.stop
  }

  lemma MulStep(a: nat, b: nat, size: nat)
    requires a < b
    ensures (a + 1) * size <= b * size
  {
  }

  /** Index `x` lies in block `i` exactly when `x // K == i`. */
  lemma BlockOf(x: nat, i: nat, size: nat)
    requires size > 0
    ensures InSlice(x, GSlice(i, size)) <==> x / size == i
  {
    var q := x / size;
    assert q * size <= x < (q + 1) * size;
    if InSlice(x, GSlice(i, size)) {
      if q < i { MulStep(q, i, size); }
      if i < q { MulStep(i, q, size); }
    }
  }

  /** Every block holds `K` indices, blocks of different groups share no
      index, and together the first `G` blocks cover `[0, G*K)`. */
  lemma BlocksPartition(groups: nat, size: nat)
    requires size > 0
    ensures forall i: nat :: GSlice(i, size).stop - GSlice(i, size).start == size
    ensures forall x: nat, i: nat, j: nat ::
              InSlice(x, GSlice(i, size)) && InSlice(x, GSlice(j, size)) ==> i == j
    ensures forall x: nat :: InSlice(x, Slice(0, groups * size)) <==>
              exists i: nat :: i < groups && InSlice(x, GSlice(i, size))
  {
    forall x: nat, i: nat, j: nat | InSlice(x, GSlice(i, size)) && InSlice(x, GSlice(j, size))
      ensures i == j
    {
      BlockOf(x, i, size);
      BlockOf(x, j, size);
    }
    forall x: nat
      ensures InSlice(x, Slice(0, groups * size)) <==> exists i: nat :: i < groups && InSlice(x, GSlice(i, size))
    {
      var q := x / size;
      BlockOf(x, q, size);
      if x < groups * size {
        if q >= groups { MulStep(groups - 1, q, size); }
      }
      if exists i: nat :: i < groups && InSlice(x, GSlice(i, size)) {
        var i: nat :| i < groups && InSlice(x, GSlice(i, size));
        MulStep(i, groups, size);
      }
    }
  }
}

=== FILE: groupsearch.dfy ===
/** The randomised pair-swap search that balances the groups (`optimize` of
    the create_groups plugin).  The energy function and the random number
    generator are parameters: `energy` scores an arrangement, `draws` is the
    stream of index pairs `randint` would produce and `rand` the uniform
    numbers `rand()` would produce. */
module GroupSearch {
  import Groups

  /** `data[idx] = data[idx[::-1]]` for `idx = [a, b]`: rows `a` and `b`
      trade places. */
  function Swap(d: seq<Groups.Row>, a: nat, b: nat): (r: seq<Groups.Row>)
    requires a < |d| && b < |d|
    ensures |r| == |d|
    ensures r[a] == d[b] && r[b] == d[a]
    ensures forall k :: 0 <= k < |d| && k != a && k != b ==> r[k] == d[k]
    ensures multiset(r) == multiset(d)
  {
    d[a := d[b]][b := d[a]]
  }

  /** Swapping the same pair again restores the arrangement. */
  lemma SwapInvolution(d: seq<Groups.Row>, a: nat, b: nat)
    requires a < |d| && b < |d|
    ensures Swap(Swap(d, a, b), a, b) == d
  {
    var s := Swap(Swap(d, a, b), a, b);
    assert forall k :: 0 <= k < |d| ==> s[k] == d[k];
  }

  /** The pair `(x, y)` lies in two different groups: `x // K != y // K`. */
  predicate Crosses(pair: (nat, nat), size: nat)
    requires size > 0
  {
    pair.0 / size != pair.1 / size
  }

  /** Crossing blocks is the same as lying in two different `gslice` blocks. */
  lemma CrossesIffDifferentSlices(pair: (nat, nat), size: nat)
    requires size > 0
    ensures Crosses(pair, size) <==>
              !exists i: nat :: Groups.InSlice(pair.0, Groups.GSlice(i, size))
                                && Groups.InSlice(pair.1, Groups.GSlice(i, size))
  {
    Groups.BlockOf(pair.0, pair.0 / size, size);
    Groups.BlockOf(pair.1, pair.0 / size, size);
    forall i: nat ensures Groups.InSlice(pair.0, Groups.GSlice(i, size))
                          && Groups.InSlice(pair.1, Groups.GSlice(i, size))
                          ==> pair.0 / size == pair.1 / size
    {
      Groups.BlockOf(pair.0, i, size);
      Groups.BlockOf(pair.1, i, size);
    }
  }

  /** The draws the `while` loop keeps: the pairs that cross groups, in the
      order drawn; same-group draws are thrown away. */
  function CrossDraws(ds: seq<(nat, nat)>, size: nat): (r: seq<(nat, nat)>)
    requires size > 0
    ensures |r| <= |ds|
    ensures forall k :: 0 <= k < |r| ==> Crosses(r[k], size)
  {
    if |ds| == 0 then []
    else
      var front := CrossDraws(ds[..|ds| - 1], size);
      if Crosses(ds[|ds| - 1], size) then front + [ds[|ds| - 1]] else front
  }

  /** The kept draws are exactly the crossing ones. */
  lemma {:induction false} CrossDrawsMembers(ds: seq<(nat, nat)>, size: nat)
    requires size > 0
    ensures forall x :: x in CrossDraws(ds, size) <==> x in ds && Crosses(x, size)
  {
    if |ds| > 0 {
      CrossDrawsMembers(ds[..|ds| - 1], size);
      assert ds == ds[..|ds| - 1] + [ds[|ds| - 1]];
    }
  }

  /** Drawing one more crossing pair keeps it. */
  lemma CrossDrawsTake(ds: seq<(nat, nat)>, size: nat, n: nat)
    requires size > 0 && n < |ds| && Crosses(ds[n], size)
    ensures CrossDraws(ds[..n + 1], size) == CrossDraws(ds[..n], size) + [ds[n]]
  {
    assert ds[..n + 1][..n] == ds[..n];
  }

  /** When every draw crosses groups, none is thrown away. */
  lemma {:induction false} CrossDrawsAll(ds: seq<(nat, nat)>, size: nat)
    requires size > 0
    requires forall k :: 0 <= k < |ds| ==> Crosses(ds[k], size)
    ensures CrossDraws(ds, size) == ds
  {
    if |ds| > 0 {
      CrossDrawsAll(ds[..|ds| - 1], size);
      assert ds == ds[..|ds| - 1] + [ds[|ds| - 1]];
    }
  }

  /** `E1 < E2 or (p > 0. and p > np.random.rand())`, the revert test as the
      source writes it: the swap from energy `e1` to `e2` is undone. */
  predicate RevertsAsWritten(e1: real, e2: real, p: real, u: real) {
    e1 < e2 || (p > 0.0 && p > u)
  }

  /** The revert test the documentation describes: a swap that lowers the
      energy is kept, and one that raises it is kept only with probability
      `p`, that is when the uniform draw `u` falls below `p`. */
  predicate Reverts(e1: real, e2: real, p: real, u: real) {
    e1 < e2 && !(p > 0.0 && p > u)
  }

  /** As written, a swap that lowers the energy is undone whenever the draw
      falls below `p` ... */
  lemma AsWrittenRevertsImprovement()
    ensures var (e1, e2, p, u) := (1.0, 0.5, 0.5, 0.1);
            e2 < e1 && RevertsAsWritten(e1, e2, p, u) && !Reverts(e1, e2, p, u)
  {
  }

  /** ... and a swap that raises it is never kept, whatever `p` is. */
  lemma AsWrittenNeverAcceptsWorse(e1: real, e2: real, p: real, u: real)
    requires e1 < e2
    ensures RevertsAsWritten(e1, e2, p, u)
  {
  }

  /** The corrected rule keeps every swap that does not raise the energy,
      and keeps a swap that raises it exactly when the draw is below `p`. */
  lemma RevertsMeaning(e1: real, e2: real, p: real, u: real)
    ensures e2 <= e1 ==> !Reverts(e1, e2, p, u)
    ensures e1 < e2 ==> (Reverts(e1, e2, p, u) <==> !(p > 0.0 && u < p))
  {
  }

  /** With the default `p = 0` both rules decide the same. */
  lemma RulesAgreeWithoutNoise(e1: real, e2: real, p: real, u: real)
    requires p <= 0.0
    ensures RevertsAsWritten(e1, e2, p, u) <==> Reverts(e1, e2, p, u)
  {
  }

  /** Which revert test a search applies: the one `optimize` executes, or
      the one its documentation describes. */
  datatype Rule = AsWritten | Documented

  predicate Undoes(rule: Rule, e1: real, e2: real, p: real, u: real) {
    match rule
    case AsWritten => RevertsAsWritten(e1, e2, p, u)
    case Documented => Reverts(e1, e2, p, u)
  }

  /** One iteration of the search on a crossing pair: swap, compare the
      energies, undo the swap if the rule says so. */
  function Step(d: seq<Groups.Row>, pair: (nat, nat), rule: Rule, energy: seq<Groups.Row> -> real, p: real, u: real)
    : (r: seq<Groups.Row>)
    requires pair.0 < |d| && pair.1 < |d|
    ensures r == d || r == Swap(d, pair.0, pair.1)
    ensures multiset(r) == multiset(d)
    ensures (rule == Documented || p <= 0.0) && energy(Swap(d, pair.0, pair.1)) <= energy(d)
            ==> r == Swap(d, pair.0, pair.1)
    ensures rule == AsWritten && energy(d) < energy(Swap(d, pair.0, pair.1)) ==> r == d
    ensures rule == AsWritten && p > 0.0 && u < p ==> r == d
    ensures rule == AsWritten && energy(Swap(d, pair.0, pair.1)) <= energy(d) && !(p > 0.0 && u < p)
            ==> r == Swap(d, pair.0, pair.1)
    ensures rule == Documented && p > 0.0 && u < p ==> r == Swap(d, pair.0, pair.1)
    ensures rule == Documented && energy(d) < energy(Swap(d, pair.0, pair.1)) && !(p > 0.0 && u < p)
            ==> r == d
    ensures p <= 0.0 ==> energy(r) <= energy(d)
    ensures p <= 0.0 && energy(d) < energy(Swap(d, pair.0, pair.1)) ==> r == d
  {
    var s := Swap(d, pair.0, pair.1);
    if Undoes(rule, energy(d), energy(s), p, u) then d else s
  }

  /** With the default `p = 0` the search takes the same step under either
      rule. */
  lemma StepRulesAgree(d: seq<Groups.Row>, pair: (nat, nat), energy: seq<Groups.Row> -> real, p: real, u: real)
    requires pair.0 < |d| && pair.1 < |d| && p <= 0.0
    ensures Step(d, pair, AsWritten, energy, p, u) == Step(d, pair, Documented, energy, p, u)
  {
    RulesAgreeWithoutNoise(energy(d), energy(Swap(d, pair.0, pair.1)), p, u);
  }

  predicate InRange(draws: seq<(nat, nat)>, n: nat) {
    forall k :: 0 <= k < |draws| ==> draws[k].0 < n && draws[k].1 < n
  }

  /** `states` records trying the pairs of `chosen` one after another,
      drawing `rand(k)` for the `k`-th try. */
  predicate Traced(chosen: seq<(nat, nat)>, states: seq<seq<Groups.Row>>, rule: Rule, energy: seq<Groups.Row> -> real,
                   p: real, rand: nat -> real)
  {
    && |states| == |chosen| + 1
    && forall k :: 0 <= k < |chosen| ==> StepAt(chosen, states, rule, energy, p, rand, k)
  }

  /** The `k`-th try of a trace leads from `states[k]` to `states[k + 1]`. */
  predicate StepAt(chosen: seq<(nat, nat)>, states: seq<seq<Groups.Row>>, rule: Rule, energy: seq<Groups.Row> -> real,
                   p: real, rand: nat -> real, k: int)
  {
    && 0 <= k < |chosen| && k + 1 < |states|
    && chosen[k].0 < |states[k]| && chosen[k].1 < |states[k]|
    && states[k + 1] == Step(states[k], chosen[k], rule, energy, p, rand(k))
  }

  /** Every arrangement along a trace holds the rows of the first, and with
      `p <= 0` none has a higher energy than the first. */
  lemma {:induction false} TracedInvariant(chosen: seq<(nat, nat)>, states: seq<seq<Groups.Row>>,
                                           rule: Rule, energy: seq<Groups.Row> -> real, p: real, rand: nat -> real, n: nat)
    requires Traced(chosen, states, rule, energy, p, rand) && n < |states|
    ensures |states[n]| == |states[0]| && multiset(states[n]) == multiset(states[0])
    ensures p <= 0.0 ==> energy(states[n]) <= energy(states[0])
  {
    if n > 0 {
      TracedInvariant(chosen, states, rule, energy, p, rand, n - 1);
      assert StepAt(chosen, states, rule, energy, p, rand, n - 1);
      var before, after := states[n - 1], states[n];
      assert after == Step(before, chosen[n - 1], rule, energy, p, rand(n - 1));
      assert multiset(after) == multiset(before);
      assert |after| == |before| by {
        assert |multiset(after)| == |multiset(before)|;
      }
      assert p <= 0.0 ==> energy(after) <= energy(before);
    }
  }

  lemma TracedExtend(chosen: seq<(nat, nat)>, states: seq<seq<Groups.Row>>, rule: Rule, energy: seq<Groups.Row> -> real,
                     p: real, rand: nat -> real, pair: (nat, nat))
    requires Traced(chosen, states, rule, energy, p, rand)
    requires pair.0 < |states[|chosen|]| && pair.1 < |states[|chosen|]|
    ensures Traced(chosen + [pair], states + [Step(states[|chosen|], pair, rule, energy, p, rand(|chosen|))],
                   rule, energy, p, rand)
  {
    var next := Step(states[|chosen|], pair, rule, energy, p, rand(|chosen|));
    var c2, s2 := chosen + [pair], states + [next];
    forall k | 0 <= k < |c2|
      ensures StepAt(c2, s2, rule, energy, p, rand, k)
    {
      if k < |chosen| {
        assert StepAt(chosen, states, rule, energy, p, rand, k);
        assert c2[k] == chosen[k] && s2[k] == states[k] && s2[k + 1] == states[k + 1];
      }
    }
  }

  /** The `while` loop of one iteration: skips draws, from position `from`
      on, whose two indices share a group; `next` is the position of the
      first crossing draw, or `|draws|` when there is none. */
  method Resample(draws: seq<(nat, nat)>, size: nat, from: nat) returns (next: nat)
    requires size > 0 && from <= |draws|
    ensures from <= next <= |draws|
    ensures forall k :: from <= k < next ==> !Crosses(draws[k], size)
    ensures next < |draws| ==> Crosses(draws[next], size)
    ensures CrossDraws(draws[..next], size) == CrossDraws(draws[..from], size)
  {
    next := from;
    while next < |draws| && !Crosses(draws[next], size)
      invariant from <= next <= |draws|
      invariant forall k :: from <= k < next ==> !Crosses(draws[k], size)
      invariant CrossDraws(draws[..next], size) == CrossDraws(draws[..from], size)
    {
      assert draws[..next + 1][..next] == draws[..next];
      next := next + 1;
    }
  }

  /** What holds after each iteration of `optimize`: `chosen` are the
      crossing draws among the first `used`, the last draw consumed was one
      of them, and `states` traces the tries from `data` to `result`. */
  predicate Searched(data: seq<Groups.Row>, size: nat, rule: Rule, energy: seq<Groups.Row> -> real, p: real,
                     draws: seq<(nat, nat)>, rand: nat -> real,
                     result: seq<Groups.Row>, chosen: seq<(nat, nat)>, states: seq<seq<Groups.Row>>, used: nat)
    requires size > 0
  {
    && used <= |draws| && chosen == CrossDraws(draws[..used], size)
    && (used == 0 || used == |draws| || Crosses(draws[used - 1], size))
    && Traced(chosen, states, rule, energy, p, rand)
    && states[0] == data && states[|chosen|] == result
  }

  /** Trying the next crossing draw, at position `next`, keeps `Searched`. */
  lemma SearchedStep(data: seq<Groups.Row>, size: nat, rule: Rule, energy: seq<Groups.Row> -> real, p: real,
                     draws: seq<(nat, nat)>, rand: nat -> real,
                     result: seq<Groups.Row>, chosen: seq<(nat, nat)>, states: seq<seq<Groups.Row>>, used: nat,
                     next: nat)
    requires size > 0 && InRange(draws, |data|)
    requires Searched(data, size, rule, energy, p, draws, rand, result, chosen, states, used)
    requires used <= next < |draws| && Crosses(draws[next], size)
    requires CrossDraws(draws[..next], size) == CrossDraws(draws[..used], size)
    ensures |result| == |data|
    ensures var r := Step(result, draws[next], rule, energy, p, rand(|chosen|));
            Searched(data, size, rule, energy, p, draws, rand, r, chosen + [draws[next]], states + [r], next + 1)
  {
    CrossDrawsTake(draws, size, next);
    TracedInvariant(chosen, states, rule, energy, p, rand, |chosen|);
    TracedExtend(chosen, states, rule, energy, p, rand, draws[next]);
  }

  /** Running out of draws after `used` keeps `Searched`. */
  lemma SearchedExhausted(data: seq<Groups.Row>, size: nat, rule: Rule, energy: seq<Groups.Row> -> real, p: real,
                          draws: seq<(nat, nat)>, rand: nat -> real,
                          result: seq<Groups.Row>, chosen: seq<(nat, nat)>, states: seq<seq<Groups.Row>>, used: nat)
    requires size > 0
    requires Searched(data, size, rule, energy, p, draws, rand, result, chosen, states, used)
    requires CrossDraws(draws, size) == CrossDraws(draws[..used], size)
    ensures Searched(data, size, rule, energy, p, draws, rand, result, chosen, states, |draws|)
  {
    assert draws[..|draws|] == draws;
  }

  /** What `Searched` says about the final arrangement. */
  lemma SearchedMeans(data: seq<Groups.Row>, size: nat, rule: Rule, energy: seq<Groups.Row> -> real, p: real,
                      draws: seq<(nat, nat)>, rand: nat -> real,
                      result: seq<Groups.Row>, chosen: seq<(nat, nat)>, states: seq<seq<Groups.Row>>, used: nat)
    requires size > 0
    requires Searched(data, size, rule, energy, p, draws, rand, result, chosen, states, used)
    ensures multiset(result) == multiset(data)
    ensures forall k :: 0 <= k < |chosen| ==> Crosses(chosen[k], size)
    ensures p <= 0.0 ==> energy(result) <= energy(data)
  {
    TracedInvariant(chosen, states, rule, energy, p, rand, |chosen|);
  }

  /** The loop of `optimize`: at most `rep` tries, stopping early only when
      the draws run out. */
  method Search(data: seq<Groups.Row>, size: nat, rep: nat, rule: Rule, energy: seq<Groups.Row> -> real, p: real,
                draws: seq<(nat, nat)>, rand: nat -> real)
    returns (result: seq<Groups.Row>, chosen: seq<(nat, nat)>, states: seq<seq<Groups.Row>>, used: nat)
    requires size > 0
    requires InRange(draws, |data|)
    ensures |chosen| <= rep
    ensures |chosen| < rep ==> used == |draws|
    ensures Searched(data, size, rule, energy, p, draws, rand, result, chosen, states, used)
  {
    result := data;
    chosen := [];
    states := [data];
    used := 0;
    var exhausted := false;
    while |chosen| < rep && !exhausted
      invariant |chosen| <= rep
      invariant exhausted ==> used == |draws|
      invariant Searched(data, size, rule, energy, p, draws, rand, result, chosen, states, used)
      decreases rep - |chosen|, if exhausted then 0 else 1
    {
      result, chosen, states, used, exhausted :=
        Iteration(data, size, rule, energy, p, draws, rand, result, chosen, states, used);
    }
  }

  /** One iteration of the loop of `optimize`: draw until a pair crosses
      groups and try that swap, or run out of draws. */
  method Iteration(data: seq<Groups.Row>, size: nat, rule: Rule, energy: seq<Groups.Row> -> real, p: real,
                   draws: seq<(nat, nat)>, rand: nat -> real,
                   result: seq<Groups.Row>, chosen: seq<(nat, nat)>, states: seq<seq<Groups.Row>>, used: nat)
    returns (result': seq<Groups.Row>, chosen': seq<(nat, nat)>, states': seq<seq<Groups.Row>>, used': nat,
             exhausted: bool)
    requires size > 0 && InRange(draws, |data|)
    requires Searched(data, size, rule, energy, p, draws, rand, result, chosen, states, used)
    ensures Searched(data, size, rule, energy, p, draws, rand, result', chosen', states', used')
    ensures exhausted ==> used' == |draws| && chosen' == chosen
    ensures !exhausted ==> |chosen'| == |chosen| + 1 && chosen'[|chosen|] == draws[used' - 1]
  {
    var next := Resample(draws, size, used);
    if next == |draws| {
      assert draws[..next] == draws;
      SearchedExhausted(data, size, rule, energy, p, draws, rand, result, chosen, states, used);
      result', chosen', states', used', exhausted := result, chosen, states, next, true;
    } else {
      SearchedStep(data, size, rule, energy, p, draws, rand, result, chosen, states, used, next);
      var pair := draws[next];
      result' := Step(result, pair, rule, energy, p, rand(|chosen|));
      chosen' := chosen + [pair];
      states' := states + [result'];
      used' := next + 1;
      exhausted := false;
    }
  }

  /** `optimize(data, K, rep, energy, weights, p)`: `rep` iterations, each
      drawing pairs until one crosses groups and then trying that swap.
      `chosen` are the pairs tried, `states` the arrangement before and after
      each try, and `used` the number of draws consumed.  With `rule` set to
      `AsWritten` this is the source's loop; with `Documented` it is the loop
      its documentation describes. */
  method Optimize(data: seq<Groups.Row>, size: nat, rep: nat, rule: Rule, energy: seq<Groups.Row> -> real, p: real,
                  draws: seq<(nat, nat)>, rand: nat -> real)
    returns (result: seq<Groups.Row>, chosen: seq<(nat, nat)>, states: seq<seq<Groups.Row>>, used: nat)
    requires size > 0
    requires InRange(draws, |data|)
    ensures multiset(result) == multiset(data)
    ensures |chosen| <= rep
    ensures used <= |draws| && chosen == CrossDraws(draws[..used], size)
    ensures forall k :: 0 <= k < |chosen| ==> Crosses(chosen[k], size)
    ensures |chosen| < rep ==> used == |draws|
    ensures used < |draws| ==> |chosen| == rep && (used == 0 || Crosses(draws[used - 1], size))
    ensures Traced(chosen, states, rule, energy, p, rand)
    ensures states[0] == data && states[|chosen|] == result
    ensures p <= 0.0 ==> energy(result) <= energy(data)
  {
    result, chosen, states, used := Search(data, size, rep, rule, energy, p, draws, rand);
    SearchedMeans(data, size, rule, energy, p, draws, rand, result, chosen, states, used);
  }
}

=== FILE: ranking.dfy ===
/** Ordering applicants by score and giving every lab one rank
    (`_assign_rankings`). */
module Ranking {
  import opened Equivs

  /** The parts of an application the ranking reads; `score` is the value
      the formula gave it. */
  datatype Applicant = Applicant(institute: string, group: string, score: real)

  /** Applicant `i` comes before applicant `j` in `sorted(..., key=score,
      reverse=True)`: a higher score first, equal scores in input order. */
  predicate Precedes(scores: seq<real>, i: nat, j: nat)
    requires i < |scores| && j < |scores|
  {
    scores[i] > scores[j] || (scores[i] == scores[j] && i < j)
  }

  /** `order` lists positions of `scores` in `Precedes` order. */
  predicate SortedBy(scores: seq<real>, order: seq<nat>) {
    && (forall k :: 0 <= k < |order| ==> order[k] < |scores|)
    && (forall k, l :: 0 <= k < l < |order| ==> Precedes(scores, order[k], order[l]))
  }

  function Insert(scores: seq<real>, order: seq<nat>, x: nat): (r: seq<nat>)
    requires x < |scores| && x !in order && SortedBy(scores, order)
    ensures |r| == |order| + 1
    ensures forall y :: y in r <==> y in order || y == x
    ensures SortedBy(scores, r)
  {
    if |order| == 0 then [x]
    else if Precedes(scores, order[0], x) then
      var tail := Insert(scores, order[1..], x);
      var r := [order[0]] + tail;
      InsertHead(scores, order, x, tail);
      r
    else
      [x] + order
  }

  lemma InsertHead(scores: seq<real>, order: seq<nat>, x: nat, tail: seq<nat>)
    requires x < |scores| && |order| > 0 && SortedBy(scores, order)
    requires Precedes(scores, order[0], x)
    requires SortedBy(scores, tail)
    requires forall y :: y in tail <==> y in order[1..] || y == x
    ensures SortedBy(scores, [order[0]] + tail)
  {
    var r := [order[0]] + tail;
    forall l | 0 < l < |r| ensures Precedes(scores, order[0], r[l]) {
      assert r[l] == tail[l - 1];
      assert r[l] in tail;
      if r[l] != x {
        var m :| 0 <= m < |order[1..]| && order[1..][m] == r[l];
        assert order[m + 1] == r[l];
      }
    }
    forall k, l | 0 <= k < l < |r| ensures Precedes(scores, r[k], r[l]) {
      if k > 0 {
        assert r[k] == tail[k - 1] && r[l] == tail[l - 1];
      }
    }
  }

  /** The first `n` positions in sorted order. */
  function SortPrefix(scores: seq<real>, n: nat): (order: seq<nat>)
    requires n <= |scores|
    ensures SortedBy(scores, order)
    ensures |order| == n
    ensures forall y :: y in order <==> 0 <= y < n
  {
    if n == 0 then []
    else Insert(scores, SortPrefix(scores, n - 1), n - 1)
  }

  /** The positions of `scores` in the order the stable descending sort puts
      them: every position exactly once, a higher score first, equal scores
      in their input order. */
  function SortOrder(scores: seq<real>): (order: seq<nat>)
    ensures |order| == |scores|
    ensures forall i :: 0 <= i < |scores| ==> i in order
    ensures forall k :: 0 <= k < |order| ==> order[k] < |scores|
    ensures forall k, l :: 0 <= k < l < |order| ==>
              scores[order[k]] > scores[order[l]]
              || (scores[order[k]] == scores[order[l]] && order[k] < order[l])
  {
    SortPrefix(scores, |scores|)
  }

  /** The labs in order of first appearance. */
  function FirstSeen(labs: seq<string>): (d: seq<string>)
    ensures forall i, j :: 0 <= i < j < |d| ==> d[i] != d[j]
    ensures forall x :: x in d <==> x in labs
  {
    if |labs| == 0 then []
    else
      var init := labs[..|labs| - 1];
      var d := FirstSeen(init);
      assert labs == init + [labs[|labs| - 1]];
      if labs[|labs| - 1] in d then d else d + [labs[|labs| - 1]]
  }

  function IndexOf(d: seq<string>, x: string): (k: nat)
    requires x in d
    ensures k < |d| && d[k] == x
    ensures forall j :: 0 <= j < k ==> d[j] != x
  {
    if d[0] == x then 0 else 1 + IndexOf(d[1..], x)
  }

  /** The rank each lab gets: its position among the labs in order of first
      appearance. */
  function RanksOf(labs: seq<string>): seq<nat> {
    seq(|labs|, k requires 0 <= k < |labs| => IndexOf(FirstSeen(labs), labs[k]))
  }

  lemma IndexOfExtended(d: seq<string>, y: string)
    ensures forall x :: x in d ==> IndexOf(d + [y], x) == IndexOf(d, x)
  {
    forall x | x in d ensures IndexOf(d + [y], x) == IndexOf(d, x) {
      IndexOfExtendedAt(d, y, x);
    }
  }

  lemma IndexOfExtendedAt(d: seq<string>, y: string, x: string)
    requires x in d
    ensures IndexOf(d + [y], x) == IndexOf(d, x)
  {
    var e := d + [y];
    var k := IndexOf(d, x);
    assert e[k] == x;
  }

  lemma IndexOfLast(d: seq<string>, y: string)
    requires y !in d
    ensures IndexOf(d + [y], y) == |d|
  {
    var e := d + [y];
    assert e[|d|] == y;
  }

  lemma FirstSeenStep(labs: seq<string>, i: nat)
    requires i < |labs|
    ensures FirstSeen(labs[..i + 1]) ==
              if labs[i] in FirstSeen(labs[..i]) then FirstSeen(labs[..i])
              else FirstSeen(labs[..i]) + [labs[i]]
  {
    assert labs[..i + 1][..i] == labs[..i];
  }

  /** The lab-to-rank table the loop keeps. */
  function RankTable(d: seq<string>): map<string, nat> {
    map x | x in d :: IndexOf(d, x)
  }

  lemma RankTableStep(d: seq<string>, lab: string)
    requires lab !in d
    ensures RankTable(d + [lab]) == RankTable(d)[lab := |d|]
  {
    IndexOfExtended(d, lab);
    IndexOfLast(d, lab);
    var m := RankTable(d + [lab]);
    var m' := RankTable(d)[lab := |d|];
    assert forall x :: x in m <==> x in m';
    forall x | x in m ensures m[x] == m'[x] {
      if x != lab { assert x in d; }
    }
  }

  lemma RanksOfStep(labs: seq<string>, i: nat)
    requires i < |labs|
    ensures RanksOf(labs[..i + 1]) ==
              RanksOf(labs[..i]) + [IndexOf(FirstSeen(labs[..i + 1]), labs[i])]
  {
    var r, r' := RanksOf(labs[..i + 1]), RanksOf(labs[..i]) + [IndexOf(FirstSeen(labs[..i + 1]), labs[i])];
    forall k | 0 <= k < |r| ensures r[k] == r'[k] {
      if k < i {
        RanksOfStepAt(labs, i, k);
      } else {
        assert labs[..i + 1][k] == labs[i];
      }
    }
    assert r == r';
  }

  /** Appending a lab leaves the ranks before it as they were. */
  lemma RanksOfStepAt(labs: seq<string>, i: nat, k: nat)
    requires k < i < |labs|
    ensures RanksOf(labs[..i + 1])[k] == RanksOf(labs[..i])[k]
  {
    var p, q := labs[..i], labs[..i + 1];
    FirstSeenStep(labs, i);
    var dp := FirstSeen(p);
    assert q[k] == p[k] && p[k] in dp;
    if labs[i] !in dp {
      IndexOfExtendedAt(dp, labs[i], p[k]);
    }
  }

  /** The rank loop: a lab seen for the first time takes the next rank, and
      every later applicant of that lab takes the same rank again. */
  method CollapseRanks(labs: seq<string>) returns (ranks: seq<nat>)
    ensures ranks == RanksOf(labs)
    ensures forall i, j :: 0 <= i < |labs| && 0 <= j < |labs| ==>
              (ranks[i] == ranks[j] <==> labs[i] == labs[j])
  {
    var seen: map<string, nat> := map[];
    var rank: nat := 0;
    ranks := [];
    ghost var d: seq<string> := [];
    var i := 0;
    while i < |labs|
      invariant 0 <= i <= |labs|
      invariant d == FirstSeen(labs[..i])
      invariant rank == |d|
      invariant seen == RankTable(d)
      invariant ranks == RanksOf(labs[..i])
    {
      var lab := labs[i];
      FirstSeenStep(labs, i);
      RanksOfStep(labs, i);
      if lab !in seen {
        RankTableStep(d, lab);
        seen := seen[lab := rank];
        rank := rank + 1;
        d := d + [lab];
      }
      ranks := ranks + [seen[lab]];
      i := i + 1;
    }
    assert labs[..|labs|] == labs;
  }

  /** Two applicants share a rank exactly when they share a lab. */
  lemma SameRankIffSameLab(labs: seq<string>, i: nat, j: nat)
    requires i < |labs| && j < |labs|
    ensures RanksOf(labs)[i] == RanksOf(labs)[j] <==> labs[i] == labs[j]
  {
  }

  /** The ranks are exactly `0 .. L-1` for `L` distinct labs. */
  lemma RanksExact(labs: seq<string>)
    ensures forall k :: 0 <= k < |labs| ==> RanksOf(labs)[k] < |FirstSeen(labs)|
    ensures forall r: nat :: r < |FirstSeen(labs)| ==> r in RanksOf(labs)
  {
    var d := FirstSeen(labs);
    forall r: nat | r < |d| ensures r in RanksOf(labs) {
      assert d[r] in labs;
      var k :| 0 <= k < |labs| && labs[k] == d[r];
      assert RanksOf(labs)[k] == r;
    }
  }

  lemma {:induction false} FirstSeenPrefix(labs: seq<string>, n: nat)
    requires n <= |labs|
    ensures FirstSeen(labs[..n]) <= FirstSeen(labs)
    decreases |labs| - n
  {
    if n < |labs| {
      FirstSeenPrefix(labs, n + 1);
      FirstSeenStep(labs, n);
      assert labs[..|labs|] == labs;
    } else {
      assert labs[..n] == labs;
    }
  }

  /** A lab's rank is the number of distinct labs seen before its first
      applicant. */
  lemma RankOfFirstAppearance(labs: seq<string>, k: nat)
    requires k < |labs| && labs[k] !in labs[..k]
    ensures RanksOf(labs)[k] == |FirstSeen(labs[..k])|
  {
    var before := FirstSeen(labs[..k]);
    FirstSeenStep(labs, k);
    FirstSeenPrefix(labs, k + 1);
    var d := FirstSeen(labs);
    assert labs[k] !in before;
    assert d[|before|] == labs[k];
    assert forall j :: 0 <= j < |before| ==> d[j] == before[j];
  }

  /** Ranks do not always grow down the sorted list: a lab that reappears
      after another lab takes its earlier, smaller rank again. */
  lemma RanksNotMonotone()
    ensures RanksOf(["X/1", "Y/1", "X/1"]) == [0, 1, 0]
  {
    var x, y := "X/1", "Y/1";
    assert x != y by { assert x[0] != y[0]; }
    ReturningLabFirstSeen(x, y);
    var d := [x, y];
    assert IndexOf(d, x) == 0;
    assert IndexOf(d, y) == 1 by { assert d[1..] == [y]; }
  }

  /** The labs of the example above, in order of first appearance. */
  lemma ReturningLabFirstSeen(x: string, y: string)
    requires x != y
    ensures FirstSeen([x, y, x]) == [x, y]
  {
    FirstSeenPair(x, y);
    FirstSeenSeen([x, y], [x, y], x);
    assert [x, y] + [x] == [x, y, x];
  }

  /** Two different labs are seen in their order. */
  lemma FirstSeenPair(x: string, y: string)
    requires x != y
    ensures FirstSeen([x, y]) == [x, y]
  {
    FirstSeenNew([], [], x);
    assert [] + [x] == [x];
    FirstSeenNew([x], [x], y);
    assert [x] + [y] == [x, y];
  }

  lemma FirstSeenNew(init: seq<string>, d: seq<string>, lab: string)
    requires FirstSeen(init) == d && lab !in d
    ensures FirstSeen(init + [lab]) == d + [lab]
  {
    FirstSeenSnoc(init, lab);
  }

  lemma FirstSeenSeen(init: seq<string>, d: seq<string>, lab: string)
    requires FirstSeen(init) == d && lab in d
    ensures FirstSeen(init + [lab]) == d
  {
    FirstSeenSnoc(init, lab);
  }

  /** Appending one lab appends it to the labs seen so far, unless it was
      seen already. */
  lemma FirstSeenSnoc(init: seq<string>, lab: string)
    ensures FirstSeen(init + [lab]) ==
              if lab in FirstSeen(init) then FirstSeen(init) else FirstSeen(init) + [lab]
  {
    assert (init + [lab])[..|init|] == init;
  }

  /** `institute + ' / ' + group` after canonicalising both. */
  function LabOf(t: EquivTable, a: Applicant): string {
    EquivMaster(t, a.institute) + " / " + EquivMaster(t, a.group)
  }

  function Scores(apps: seq<Applicant>): seq<real> {
    seq(|apps|, i requires 0 <= i < |apps| => apps[i].score)
  }

  function Labs(t: EquivTable, ranked: seq<Applicant>): seq<string> {
    seq(|ranked|, k requires 0 <= k < |ranked| => LabOf(t, ranked[k]))
  }

  /** `_assign_rankings` after scoring: sort by score, highest first and
      stable, then rank by lab. `order[k]` is the input position of the
      `k`-th applicant in the result. */
  method AssignRankings(apps: seq<Applicant>, t: EquivTable)
    returns (ranked: seq<Applicant>, order: seq<nat>, ranks: seq<nat>)
    ensures |ranked| == |apps| && |order| == |apps| && |ranks| == |apps|
    ensures forall i :: 0 <= i < |apps| ==> i in order
    ensures forall k :: 0 <= k < |order| ==> order[k] < |apps| && ranked[k] == apps[order[k]]
    ensures forall k, l :: 0 <= k < l < |ranked| ==>
              ranked[k].score > ranked[l].score
              || (ranked[k].score == ranked[l].score && order[k] < order[l])
    ensures forall i, j :: 0 <= i < |ranked| && 0 <= j < |ranked| ==>
              (ranks[i] == ranks[j] <==> LabOf(t, ranked[i]) == LabOf(t, ranked[j]))
    ensures ranks == RanksOf(Labs(t, ranked))
  {
    order := SortOrder(Scores(apps));
    ranked := seq(|order|, k requires 0 <= k < |order| => apps[order[k]]);
    ranks := CollapseRanks(Labs(t, ranked));
  }

  /** The labs of the example below, in order of first appearance. */
  lemma SharedLabFirstSeen(x: string, y: string)
    requires x != y
    ensures FirstSeen([x, x, y]) == [x, y]
  {
    FirstSeenTwice(x);
    FirstSeenNew([x, x], [x], y);
    assert [x, x] + [y] == [x, x, y];
  }

  /** A lab seen twice in a row is listed once. */
  lemma FirstSeenTwice(x: string)
    ensures FirstSeen([x, x]) == [x]
  {
    FirstSeenNew([], [], x);
    assert [] + [x] == [x];
    FirstSeenSeen([x], [x], x);
    assert [x] + [x] == [x, x];
  }

  /** Applicants scoring 0.9, 0.85 and 0.7, the first two from lab "X/1":
      they share rank 0 and the third gets rank 1, not 2. */
  lemma SharedLabExample()
    ensures RanksOf(["X/1", "X/1", "Y/1"]) == [0, 0, 1]
  {
    var x, y := "X/1", "Y/1";
    assert x != y by { assert x[0] != y[0]; }
    SharedLabFirstSeen(x, y);
    var d := [x, y];
    assert IndexOf(d, x) == 0;
    assert IndexOf(d, y) == 1 by { assert d[1..] == [y]; }
  }
}

=== FILE: ratings.dfy ===
/** Resolving a free-text skill answer to its numeric rating (`get_rating`). */
module Ratings {
  import opened Wrappers
  import opened Text

  /** A rating section of the configuration: labels with their scores, in
      the section's order. */
  datatype RatingTable = RatingTable(entries: seq<(string, real)>)

  /** `table.values()`, in order. */
  function Values(t: RatingTable): seq<real> {
    seq(|t.entries|, i requires 0 <= i < |t.entries| => t.entries[i].1)
  }

  predicate HasKey(t: RatingTable, key: string) {
    exists i :: 0 <= i < |t.entries| && t.entries[i].0 == key
  }

  /** The condition raised for a raw that has no rating: it carries the
      category name and the canonical key that was looked up. */
  datatype MissingRating = MissingRating(name: string, canonical: string) {
    /** The key to store a new rating under. */
    function Key(): string {
      canonical
    }
  }

  /** `raw` is whitespace, then `k`, then whitespace, and then either its
      end or a `(` or `/`. */
  predicate KeyLayout(raw: string, k: string) {
    exists i, e | 0 <= i <= e <= |raw| :: LayoutAt(raw, k, i, e)
  }

  /** `k` starts at `i` and what follows it, up to `e`, is whitespace. */
  predicate LayoutAt(raw: string, k: string, i: int, e: int) {
    && 0 <= i && i + |k| <= e <= |raw| && raw[i..i + |k|] == k
    && AllSpace(raw[..i]) && AllSpace(raw[i + |k|..e])
    && (e == |raw| || raw[e] == '(' || raw[e] == '/')
  }

  /** The lookup key of a raw label: cut at the first `(`, then at the first `/`,
      then stripped of surrounding whitespace. */
  function CanonicalKey(raw: string): (k: string)
    ensures '(' !in k && '/' !in k
    ensures IsStripped(k)
    ensures Contains(raw, k)
    ensures KeyLayout(raw, k)
  {
    CutShape(raw);
    CutLayout(raw);
    Strip(Before(Before(raw, '('), '/'))
  }

  /** The raw answer is whitespace, the key, whitespace, and then either
      its end or its first `(` or `/`. */
  lemma CutLayout(raw: string)
    ensures KeyLayout(raw, Strip(Before(Before(raw, '('), '/')))
  {
    var cut := Before(Before(raw, '('), '/');
    CutEnd(raw);
    SliceLayout(raw, cut);
  }

  /** The cut is a prefix of the raw answer that ends at the answer's end or
      at its first `(` or `/`. */
  lemma CutEnd(raw: string)
    ensures var cut := Before(Before(raw, '('), '/');
            cut <= raw && (|cut| == |raw| || raw[|cut|] == '(' || raw[|cut|] == '/')
  {
    var c1 := Before(raw, '(');
    var cut := Before(c1, '/');
    if |cut| < |c1| {
      assert raw[|cut|] == c1[|cut|];
    }
  }

  lemma SliceLayout(raw: string, cut: string)
    requires cut <= raw && (|cut| == |raw| || raw[|cut|] == '(' || raw[|cut|] == '/')
    ensures KeyLayout(raw, Strip(cut))
  {
    var t := TrimRight(cut);
    var k := TrimLeft(t);
    TrimRightRemovesSpace(cut);
    TrimLeftRemovesSpace(t);
    KeyInPrefix(raw, cut, t, k);
    LeadInPrefix(raw, t, |t| - |k|);
    TrailInPrefix(raw, cut, |t|);
    assert LayoutAt(raw, k, |t| - |k|, |cut|);
  }

  /** The end of a prefix of a prefix of `raw` sits at the same place in `raw`. */
  lemma KeyInPrefix(raw: string, cut: string, t: string, k: string)
    requires cut <= raw && t <= cut && |k| <= |t| && k == t[|t| - |k|..]
    ensures raw[|t| - |k|..|t|] == k
  {
    var i := |t| - |k|;
    forall x | 0 <= x < |k| ensures raw[i..|t|][x] == k[x] {
      assert k[x] == t[i + x] == cut[i + x];
    }
  }

  lemma LeadInPrefix(raw: string, t: string, n: int)
    requires t <= raw && 0 <= n <= |t| && AllSpace(t[..n])
    ensures AllSpace(raw[..n])
  {
    forall x | 0 <= x < n ensures IsSpace(raw[..n][x]) {
      assert raw[x] == t[..n][x];
    }
  }

  lemma TrailInPrefix(raw: string, cut: string, j: int)
    requires cut <= raw && 0 <= j <= |cut| && AllSpace(cut[j..])
    ensures AllSpace(raw[j..|cut|])
  {
    forall x | 0 <= x < |cut| - j ensures IsSpace(raw[j..|cut|][x]) {
      assert raw[j + x] == cut[j..][x];
    }
  }

  lemma CutShape(raw: string)
    ensures var cut := Before(Before(raw, '('), '/');
            && '(' !in Strip(cut) && '/' !in Strip(cut)
            && Contains(raw, Strip(cut))
  {
    var cut := Before(Before(raw, '('), '/');
    StripExcludes(cut, '(');
    StripExcludes(cut, '/');
    CutContained(raw, cut);
  }

  lemma CutContained(raw: string, cut: string)
    requires cut <= raw
    ensures Contains(raw, Strip(cut))
  {
    var sc := Strip(cut);
    StripOccurs(cut);
    var i :| OccursAt(cut, sc, i);
    OccursInLonger(raw, cut, sc, i);
  }

  /** `dict[key]`: the score of the entry holding `key`, if any. */
  function Lookup(t: RatingTable, key: string): (r: Option<real>)
    ensures r.None? <==> !HasKey(t, key)
    ensures r.Some? ==> exists i :: 0 <= i < |t.entries| && t.entries[i] == (key, r.value)
                                    && forall j :: 0 <= j < i ==> t.entries[j].0 != key
    decreases |t.entries|
  {
    if |t.entries| == 0 then None
    else if t.entries[0].0 == key then Some(t.entries[0].1)
    else
      var r := Lookup(RatingTable(t.entries[1..]), key);
      assert HasKey(t, key) ==> HasKey(RatingTable(t.entries[1..]), key) by {
        if HasKey(t, key) {
          var i :| 0 <= i < |t.entries| && t.entries[i].0 == key;
          assert t.entries[1..][i - 1].0 == key;
        }
      }
      if r.Some? then
        var i :| 0 <= i < |t.entries| - 1 && t.entries[1..][i] == (key, r.value)
                 && forall j :: 0 <= j < i ==> t.entries[1..][j].0 != key;
        assert t.entries[i + 1] == (key, r.value);
        assert forall j :: 0 <= j < i + 1 ==> t.entries[j].0 != key by {
          forall j | 0 <= j < i + 1 ensures t.entries[j].0 != key {
            if j > 0 { assert t.entries[j] == t.entries[1..][j - 1]; }
          }
        }
        r
      else
        r
  }

  /** `get_rating(name, dict, key, fallback)`: the score stored under the
      raw's canonical key; otherwise the fallback; otherwise the
      `MissingRating` condition. */
  function GetRating(name: string, t: RatingTable, raw: string, fallback: Option<real>)
    : (r: Result<real, MissingRating>)
    ensures HasKey(t, CanonicalKey(raw)) ==>
              r.Success? && exists i :: 0 <= i < |t.entries|
                                        && t.entries[i] == (CanonicalKey(raw), r.value)
                                        && forall j :: 0 <= j < i ==> t.entries[j].0 != CanonicalKey(raw)
    ensures !HasKey(t, CanonicalKey(raw)) && fallback.Some? ==> r == Success(fallback.value)
    ensures !HasKey(t, CanonicalKey(raw)) && fallback.None? ==>
              r.Failure? && r.error.name == name && r.error.Key() == CanonicalKey(raw)
  {
    var key := CanonicalKey(raw);
    match Lookup(t, key)
    case Some(v) => Success(v)
    case None =>
      if fallback.None? then Failure(MissingRating(name, key)) else Success(fallback.value)
  }

  /** Anything from the first `(` or `/` on, and whitespace before it, is
      explanation and does not take part in the key. */
  lemma CanonicalKeyIgnoresExplanation(x: string, w: string, rest: string)
    requires '(' !in x && '/' !in x && AllSpace(w)
    requires |rest| == 0 || rest[0] == '(' || rest[0] == '/'
    ensures CanonicalKey(x + w + rest) == CanonicalKey(x)
  {
    var xw := x + w;
    assert '(' !in xw && '/' !in xw by {
      forall i | 0 <= i < |w| ensures w[i] != '(' && w[i] != '/' { assert IsSpace(w[i]); }
    }
    assert x + w + rest == xw + rest;
    BeforeAppend(xw, rest, '(');
    var b := Before(rest, '(');
    assert |b| == 0 || b[0] == '/';
    BeforeAppend(xw, b, '/');
    assert Before(b, '/') == [];
    assert xw + [] == xw;
    BeforeAbsent(x, '(');
    BeforeAbsent(x, '/');
    StripTrailing(x, w);
  }

  /** `"x (note)"`, `"x/y"` and `"x"` resolve to the same rating. */
  lemma ExplanationIgnored(name: string, t: RatingTable, x: string, w: string, rest: string,
                           fallback: Option<real>)
    requires '(' !in x && '/' !in x && AllSpace(w)
    requires |rest| == 0 || rest[0] == '(' || rest[0] == '/'
    ensures GetRating(name, t, x + w + rest, fallback) == GetRating(name, t, x, fallback)
  {
    CanonicalKeyIgnoresExplanation(x, w, rest);
    SameKeySameRating(name, t, x + w + rest, x, fallback);
  }

  /** The rating depends on the raw answer only through its canonical key. */
  lemma SameKeySameRating(name: string, t: RatingTable, raw: string, raw': string,
                          fallback: Option<real>)
    requires CanonicalKey(raw) == CanonicalKey(raw')
    ensures GetRating(name, t, raw, fallback) == GetRating(name, t, raw', fallback)
  {
  }

  /** A canonical key is its own canonical key. */
  lemma CanonicalKeyIdempotent(raw: string)
    ensures CanonicalKey(CanonicalKey(raw)) == CanonicalKey(raw)
  {
    var k := CanonicalKey(raw);
    BeforeAbsent(k, '(');
    BeforeAbsent(k, '/');
    StripIdempotent(k);
  }
}

=== FILE: text.dfy ===
/** The handful of Python `str` operations the application ranking relies on. */
module Text {

  /** Python's `str.isspace()`: the characters `str.strip()` removes. */
  predicate IsSpace(c: char) {
    || c == ' '
    || ('\t' <= c <= '\r')
    || ('\U{1C}' <= c <= '\U{1F}')
    || c == '\U{85}' || c == '\U{A0}' || c == '\U{1680}'
    || ('\U{2000}' <= c <= '\U{200A}')
    || c == '\U{2028}' || c == '\U{2029}' || c == '\U{202F}'
    || c == '\U{205F}' || c == '\U{3000}'
  }

  predicate AllSpace(s: string) {
    forall i :: 0 <= i < |s| ==> IsSpace(s[i])
  }

  /** Neither end of `s` is whitespace: `s.strip() == s`. */
  predicate IsStripped(s: string) {
    |s| == 0 || (!IsSpace(s[0]) && !IsSpace(s[|s| - 1]))
  }

  function TrimLeft(s: string): (r: string)
    ensures |r| <= |s| && r == s[|s| - |r|..]
    ensures |r| == 0 || !IsSpace(r[0])
  {
    if |s| > 0 && IsSpace(s[0]) then
      var r := TrimLeft(s[1..]);
      assert s[1..][|s| - 1 - |r|..] == s[|s| - |r|..];
      r
    else s
  }

  /** What `TrimLeft` removes is whitespace. */
  lemma {:induction false} TrimLeftRemovesSpace(s: string)
    ensures AllSpace(s[..|s| - |TrimLeft(s)|])
  {
    if |s| > 0 && IsSpace(s[0]) {
      TrimLeftRemovesSpace(s[1..]);
      var pad, tailPad := s[..|s| - |TrimLeft(s)|], s[1..][..|s| - 1 - |TrimLeft(s)|];
      forall i | 0 <= i < |pad| ensures IsSpace(pad[i]) {
        if i > 0 { assert pad[i] == tailPad[i - 1]; }
      }
    }
  }

  function TrimRight(s: string): (r: string)
    ensures |r| <= |s| && r == s[..|r|]
    ensures |r| == 0 || !IsSpace(r[|r| - 1])
  {
    if |s| > 0 && IsSpace(s[|s| - 1]) then
      var r := TrimRight(s[..|s| - 1]);
      assert s[..|s| - 1][..|r|] == s[..|r|];
      r
    else s
  }

  /** What `TrimRight` removes is whitespace. */
  lemma {:induction false} TrimRightRemovesSpace(s: string)
    ensures AllSpace(s[|TrimRight(s)|..])
  {
    if |s| > 0 && IsSpace(s[|s| - 1]) {
      TrimRightRemovesSpace(s[..|s| - 1]);
      var pad, headPad := s[|TrimRight(s)|..], s[..|s| - 1][|TrimRight(s)|..];
      forall i | 0 <= i < |pad| ensures IsSpace(pad[i]) {
        if i < |headPad| { assert pad[i] == headPad[i]; }
      }
    }
  }

  /** Python's `s.strip()`. */
  function Strip(s: string): (r: string)
    ensures IsStripped(r)
    ensures |r| <= |s|
  {
    TrimLeft(TrimRight(s))
  }

  /** What `strip` removes is whitespace at the two ends and nothing else. */
  lemma StripSlice(s: string)
    ensures exists i, j :: 0 <= i <= j <= |s| && Strip(s) == s[i..j]
                           && AllSpace(s[..i]) && AllSpace(s[j..])
  {
    var t := TrimRight(s);
    var r := TrimLeft(t);
    var i := |t| - |r|;
    TrimRightRemovesSpace(s);
    TrimLeftRemovesSpace(t);
    assert Strip(s) == s[i..|t|];
    assert AllSpace(s[..i]) by {
      assert s[..i] == t[..i];
    }
    assert AllSpace(s[|t|..]);
  }

  lemma StripOccurs(s: string)
    ensures exists i :: OccursAt(s, Strip(s), i)
  {
    var t := TrimRight(s);
    var r := TrimLeft(t);
    assert r == Strip(s);
    assert r == s[|t| - |r|..|t|];
    assert OccursAt(s, r, |t| - |r|);
  }

  /** Stripping adds no characters. */
  lemma StripExcludes(s: string, c: char)
    requires c !in s
    ensures c !in Strip(s)
  {
    var t := TrimRight(s);
    assert c !in t by { assert t == s[..|t|]; }
    var r := TrimLeft(t);
    assert r == t[|t| - |r|..];
  }

  lemma {:induction false} TrimRightSpaces(y: string, w: string)
    requires AllSpace(w)
    ensures TrimRight(y + w) == TrimRight(y)
    decreases |w|
  {
    if |w| > 0 {
      assert (y + w)[..|y + w| - 1] == y + w[..|w| - 1];
      TrimRightSpaces(y, w[..|w| - 1]);
    } else {
      assert y + w == y;
    }
  }

  lemma {:induction false} TrimLeftSpaces(w: string, y: string)
    requires AllSpace(w)
    ensures TrimLeft(w + y) == TrimLeft(y)
    decreases |w|
  {
    if |w| > 0 {
      assert (w + y)[1..] == w[1..] + y;
      TrimLeftSpaces(w[1..], y);
    } else {
      assert w + y == y;
    }
  }

  /** Whitespace padding around an already stripped string is exactly what
      `strip` takes away. */
  lemma StripPadded(w1: string, x: string, w2: string)
    requires AllSpace(w1) && AllSpace(w2) && IsStripped(x)
    ensures Strip(w1 + x + w2) == x
  {
    TrimRightSpaces(w1 + x, w2);
    if |x| == 0 {
      assert w1 + x == w1 + [];
      TrimRightSpaces([], w1);
      assert [] + w1 == w1;
    } else {
      assert TrimRight(w1 + x) == w1 + x;
      TrimLeftSpaces(w1, x);
    }
  }

  /** Trailing whitespace never changes the stripped form. */
  lemma StripTrailing(x: string, w: string)
    requires AllSpace(w)
    ensures Strip(x + w) == Strip(x)
  {
    TrimRightSpaces(x, w);
  }

  lemma StripIdempotent(s: string)
    requires IsStripped(s)
    ensures Strip(s) == s
  {
    StripPadded([], s, []);
    assert [] + s + [] == s;
  }

  function LowerChar(c: char): char {
    if 'A' <= c <= 'Z' then (c as int + 32) as char else c
  }

  /** Python's `s.lower()`, restricted to the ASCII letters. */
  function Lower(s: string): (r: string)
    ensures |r| == |s|
    ensures forall i :: 0 <= i < |s| ==> !('A' <= r[i] <= 'Z')
    ensures forall i :: 0 <= i < |s| ==> (r[i] != s[i] <==> 'A' <= s[i] <= 'Z')
    ensures forall i :: 0 <= i < |s| && 'A' <= s[i] <= 'Z' ==> r[i] as int == s[i] as int + 32
  {
    seq(|s|, i requires 0 <= i < |s| => LowerChar(s[i]))
  }

  lemma LowerIdempotent(s: string)
    ensures Lower(Lower(s)) == Lower(s)
  {
  }

  /** `s.partition(c)[0]`, which is also `s.split(c)[0]`: the text before the
      first `c`, or all of `s` when there is none. */
  function Before(s: string, c: char): (r: string)
    ensures r <= s
    ensures c !in r
    ensures |r| < |s| ==> s[|r|] == c
  {
    if |s| == 0 || s[0] == c then [] else [s[0]] + Before(s[1..], c)
  }

  lemma BeforeAbsent(s: string, c: char)
    requires c !in s
    ensures Before(s, c) == s
  {
  }

  lemma {:induction false} BeforeAppend(a: string, b: string, c: char)
    requires c !in a
    ensures Before(a + b, c) == a + Before(b, c)
  {
    if |a| > 0 {
      assert (a + b)[1..] == a[1..] + b;
      BeforeAppend(a[1..], b, c);
      ConsTail(a, Before(b, c));
    } else {
      assert a + b == b;
    }
  }

  lemma ConsTail(a: string, x: string)
    requires |a| > 0
    ensures [a[0]] + (a[1..] + x) == a + x
  {
    assert [a[0]] + a[1..] == a;
    assert [a[0]] + (a[1..] + x) == ([a[0]] + a[1..]) + x;
  }

  /** `s.split(c)`: the pieces between the occurrences of `c`. */
  function Split(s: string, c: char): (r: seq<string>)
    ensures |r| >= 1
    ensures forall k :: 0 <= k < |r| ==> c !in r[k]
    decreases |s|
  {
    var head := Before(s, c);
    if |head| == |s| then [s] else [head] + Split(s[|head| + 1..], c)
  }

  lemma SplitNoSeparator(s: string, c: char)
    requires c !in s
    ensures Split(s, c) == [s]
  {
  }

  lemma SplitAppend(a: string, b: string, c: char)
    requires c !in a
    ensures Split(a + [c] + b, c) == [a] + Split(b, c)
  {
    BeforeAppend(a, [c] + b, c);
    assert a + [c] + b == a + ([c] + b);
    assert Before([c] + b, c) == [];
    assert Before(a + [c] + b, c) == a;
    assert (a + [c] + b)[|a| + 1..] == b;
  }

  /** `sep.join(items)`: the first item opens the text and the last one
      closes it; no items give the empty text. */
  function Join(items: seq<string>, sep: string): (r: string)
    ensures |items| == 0 ==> r == []
    ensures |items| > 0 ==> items[0] <= r
    ensures |items| > 0 ==> EndsWith(r, items[|items| - 1])
  {
    if |items| == 0 then []
    else if |items| == 1 then items[0]
    else items[0] + sep + Join(items[1..], sep)
  }

  /** `s` ends with `suffix`. */
  predicate EndsWith(s: string, suffix: string) {
    |suffix| <= |s| && s[|s| - |suffix|..] == suffix
  }

  /** `sub` occurs in `s` starting at position `i`. */
  predicate OccursAt(s: string, sub: string, i: int) {
    0 <= i <= |s| - |sub| && s[i..i + |sub|] == sub
  }

  /** An occurrence inside a prefix is an occurrence in the whole text. */
  lemma OccursInLonger(s: string, prefix: string, sub: string, i: int)
    requires prefix <= s && OccursAt(prefix, sub, i)
    ensures OccursAt(s, sub, i)
  {
    assert s[i..i + |sub|] == prefix[i..i + |sub|];
  }

  /** `sub in s` for strings: `sub` occurs somewhere in `s`. */
  function Contains(s: string, sub: string): (b: bool)
    ensures b <==> exists i :: OccursAt(s, sub, i)
  {
    if sub <= s then
      assert OccursAt(s, sub, 0);
      true
    else if |s| == 0 then
      assert forall i :: !OccursAt(s, sub, i);
      false
    else
      var b := Contains(s[1..], sub);
      assert b ==> exists i :: OccursAt(s, sub, i) by {
        if b {
          var i :| OccursAt(s[1..], sub, i);
          assert s[i + 1..i + 1 + |sub|] == s[1..][i..i + |sub|];
          assert OccursAt(s, sub, i + 1);
        }
      }
      assert (exists i :: OccursAt(s, sub, i)) ==> b by {
        if exists i :: OccursAt(s, sub, i) {
          var i :| OccursAt(s, sub, i);
          assert i != 0;
          assert s[1..][i - 1..i - 1 + |sub|] == s[i..i + |sub|];
          assert OccursAt(s[1..], sub, i - 1);
        }
      }
      b
  }
}

=== FILE: wrappers.dfy ===
/** Failure-carrying result types shared by the modules of this model. */
module Wrappers {

  /** A value that may be absent (Python's `None`). */
  datatype Option<+T> = None | Some(value: T)

  /** The outcome of an operation that either returns a value or raises. */
  datatype Result<+R, +E> = Success(value: R) | Failure(error: E)
}
